=== FILE: README.md ===
# GGRC client core: Drive attachment naming and the Cacheable model base

A Dafny model of two parts of the GGRC client.

**The Drive picker launcher component** (`gdrive_picker_launcher.js`). It covers:
- how it sanitises slugs;
- how it strips an old `_ggrc_…` suffix and writes a new one into an attached file's name;
- how it sorts a batch rename response into surviving files and per-file errors;
- which picked files it copies into the parent folder;
- how it finds the object's own folder in a mapping tree;
- which folder it chooses to upload into;
- how it reacts to a failed upload chain.

**The Cacheable model base**, as its test suite (`cacheable_spec.js`) pins it down. It covers:
- the six names of a model type and how explicit names override them;
- the merge of the `created_at`/`updated_at` attribute defaults;
- the default `findAll` endpoint;
- the registry of custom-attributable types;
- the refusal of `findAll`/`findPage` on the base type;
- the unwrapping of collection payloads;
- the 100 ms batching of list population;
- the 1000 ms refresh throttle, and the merge and backup after a refresh;
- the `customAttr` accessors and the id coercion they apply.

Modules:
- `Outcomes`, `Text` (text.dfy): `Option`/`Result`, and JavaScript character classes (`\w`, line terminators) with lower-casing and `join`.
- `Slug` (slug.dfy): `sanitizeSlug`.
- `FileNames` (file_names.dfy): `lastIndexOf`, `removeOldSuffix`, the `/^(.*)\.(\w+)$/` match, and `addFileSuffix` with its re-suffixing behaviour.
- `DriveUpload` (drive_upload.dfy): the bookkeeping of `addFilesSuffixes`, and `copyFilesToParent`.
- `Folders` (folders.dfy): `isOwnFolder`, the transient-folder bindings, the parent-folder choice, and the two failure reactions.
- `Naming`, `NamingExamples` (naming.dfy): the name forms of a model type.
- `ModelSetup` (model_setup.dfy): `setup`, the registry, the finder guard and payload unboxing.
- `Batching` (batching.dfy): the time-sliced list materializer, with the wall clock as an explicit function from reading index to milliseconds.
- `Refresh` (refresh.dfy): the refresh request, the per-instance throttle (time is an explicit input), and merge plus backup.
- `CustomAttrs` (custom_attrs.dfy): custom-attribute objects and `customAttr`.

The Drive SDK, the REST transport, promises, notifications and DOM events are not modelled. Their results are inputs: a batch rename response is a sequence of `(fileId, status)` entries, a failed chain hands over its arguments, each an optional error, and a refreshed binding list is a sequence.

Re-suffixing (`FileNames`): writing the suffix again onto an already suffixed name replaces the old suffix. `FileNames.ResuffixReplaces` proves this, but only under two conditions:
- the name in front of the first suffix is non-empty;
- the new suffix holds no `_ggrc_` other than its leading one.

Both conditions are needed:
- `FileNames.EmptyNameStacksSuffix` shows `.ext` turning into `<suffix><suffix>.ext`, because `removeOldSuffix` never cuts at index 0.
- `FileNames.GgrcTypeSlugStacks` shows that a type slug `ggrc` followed by another one makes the name grow on every pass.

The slugs come from user data, and a cut at index 0 is deliberately excluded by the `delPos > 0` test. So these are recorded as properties of the code as written, not as defects.

The Cacheable implementation file is not part of this model. The model follows the behaviour its test suite asserts. For the default find-all endpoint that is the test at `cacheable_spec.js` line 89, which expects `GET /api/foos` for the collection `foos`.

## Model

| member | source | states |
|---|---|---|
| Text.LowerCase | src/ggrc_gdrive_integration/assets/javascripts/components/gdrive_picker_launcher.js:33 | lower-casing keeps the length, maps each character through the ASCII lower-case map and leaves no upper-case letter |
| Slug.DropNonWord | src/ggrc_gdrive_integration/assets/javascripts/components/gdrive_picker_launcher.js:33 | the rest after a maximal `\W+` run: a suffix of the input that is empty or starts with a word character, everything skipped being non-word |
| Slug.CollapseRuns | src/ggrc_gdrive_integration/assets/javascripts/components/gdrive_picker_launcher.js:33 | the `/\W+/g` → `-` replacement is never longer than the input, is empty only for the empty input, and starts with a word character exactly when the input does |
| Slug.DropNonWordRun | src/ggrc_gdrive_integration/assets/javascripts/components/gdrive_picker_launcher.js:33 | skipping a run of non-word characters stops exactly at the word character after it |
| Slug.CollapseRunsLeadingRun | src/ggrc_gdrive_integration/assets/javascripts/components/gdrive_picker_launcher.js:33 | a leading non-word run of any length, up to a word character or the end, becomes one `-` |
| Slug.CollapseRunsWordHead | src/ggrc_gdrive_integration/assets/javascripts/components/gdrive_picker_launcher.js:33 | a leading word character is copied unchanged |
| Slug.CollapseRunsRun | src/ggrc_gdrive_integration/assets/javascripts/components/gdrive_picker_launcher.js:33 | word characters followed by a maximal non-word run of any length: the word characters are copied and the whole run becomes exactly one `-` |
| Slug.CollapseRunsChars | src/ggrc_gdrive_integration/assets/javascripts/components/gdrive_picker_launcher.js:33 | the replacement writes nothing but word characters and `-` |
| Slug.CollapseRunsNoUpper | src/ggrc_gdrive_integration/assets/javascripts/components/gdrive_picker_launcher.js:33 | the replacement introduces no upper-case letter |
| Slug.CollapseRunsNoAdjacent | src/ggrc_gdrive_integration/assets/javascripts/components/gdrive_picker_launcher.js:33 | after the replacement no two non-word characters are adjacent (each run became one `-`) |
| Slug.CollapseRunsWords | src/ggrc_gdrive_integration/assets/javascripts/components/gdrive_picker_launcher.js:33 | the replacement keeps every word character, in order, and only those |
| Slug.CollapseRunsFixedPoint | src/ggrc_gdrive_integration/assets/javascripts/components/gdrive_picker_launcher.js:33 | the replacement leaves a string unchanged if and only if its only non-word characters are lone `-` |
| Slug.Sanitize | src/ggrc_gdrive_integration/assets/javascripts/components/gdrive_picker_launcher.js:32-34 | with ASCII lower-casing (see `Text.LowerCase` under Left out), the sanitised slug is never longer than the slug, and it is empty only for the empty slug |
| Slug.SanitizeIsSlug | src/ggrc_gdrive_integration/assets/javascripts/components/gdrive_picker_launcher.js:32-34 | `sanitizeSlug` yields a lower-case string of word characters and single `-` separators |
| Slug.SanitizeKeepsWords | src/ggrc_gdrive_integration/assets/javascripts/components/gdrive_picker_launcher.js:32-34 | sanitising keeps exactly the lower-cased word characters of the slug |
| Slug.SanitizeFixedPoint | src/ggrc_gdrive_integration/assets/javascripts/components/gdrive_picker_launcher.js:32-34 | a string is its own sanitised form if and only if it is slug-shaped |
| Slug.SanitizeIdempotent | src/ggrc_gdrive_integration/assets/javascripts/components/gdrive_picker_launcher.js:32-34 | sanitising an already sanitised slug changes nothing |
| FileNames.LastIndexOf | src/ggrc_gdrive_integration/assets/javascripts/components/gdrive_picker_launcher.js:36 | `lastIndexOf`: -1 or an occurrence, with no occurrence further right |
| FileNames.RemoveOldSuffix | src/ggrc_gdrive_integration/assets/javascripts/components/gdrive_picker_launcher.js:35-38 | the result is a prefix; it differs from the name exactly when `_ggrc_` occurs past index 0, and is then the non-empty part before the last occurrence |
| FileNames.RemoveOldSuffixAt | src/ggrc_gdrive_integration/assets/javascripts/components/gdrive_picker_launcher.js:35-38 | with the last `_ggrc_` at `i`, the name is cut at `i` when `i > 0` and kept whole when `i = 0` |
| FileNames.SplitExtension | src/ggrc_gdrive_integration/assets/javascripts/components/gdrive_picker_launcher.js:50 | `/^(.*)\.(\w+)$/` fails exactly when no dot has a non-empty `\w` tail and a head without line terminators; on success the groups are the two sides of such a dot |
| FileNames.ExtensionDotIsLastDot | src/ggrc_gdrive_integration/assets/javascripts/components/gdrive_picker_launcher.js:50 | the dot of a match is the last dot of the name |
| FileNames.LastDotDecides | src/ggrc_gdrive_integration/assets/javascripts/components/gdrive_picker_launcher.js:50 | the pattern matches somewhere if and only if it matches at the last dot |
| FileNames.ExtensionDotUnique | src/ggrc_gdrive_integration/assets/javascripts/components/gdrive_picker_launcher.js:50 | a name matches the pattern at one dot at most |
| FileNames.SplitExtensionAt | src/ggrc_gdrive_integration/assets/javascripts/components/gdrive_picker_launcher.js:50-54 | any matching dot gives exactly the groups the replacement callback receives |
| FileNames.SuffixParts | src/ggrc_gdrive_integration/assets/javascripts/components/gdrive_picker_launcher.js:40-48 | the joined parts are `ggrc`, the sanitised instance slug, then one sanitised slug per assessment-type object, in order |
| FileNames.NewSuffix | src/ggrc_gdrive_integration/assets/javascripts/components/gdrive_picker_launcher.js:40-53 | the written suffix starts with `_ggrc_` |
| FileNames.SuffixPartsChars | src/ggrc_gdrive_integration/assets/javascripts/components/gdrive_picker_launcher.js:42-48 | every joined part (`ggrc`, the instance slug, the type slugs) is made of word characters and `-` |
| FileNames.NewSuffixChars | src/ggrc_gdrive_integration/assets/javascripts/components/gdrive_picker_launcher.js:40-53 | the suffix holds no dot and no line terminator, so a suffixed name still matches at its extension dot |
| FileNames.AddFileSuffix | src/ggrc_gdrive_integration/assets/javascripts/components/gdrive_picker_launcher.js:39-55 | a name the pattern does not match comes back unchanged; a matching one becomes the stripped name, the new suffix, `.` and the extension |
| FileNames.AddFileSuffixAt | src/ggrc_gdrive_integration/assets/javascripts/components/gdrive_picker_launcher.js:50-54 | a name matching at dot `i` becomes the stripped head, the new suffix, `.` and the extension |
| FileNames.StripSuffixed | src/ggrc_gdrive_integration/assets/javascripts/components/gdrive_picker_launcher.js:35-38 | stripping `x + suffix` cuts at the suffix's last `_ggrc_`, or not at all when that cut would fall at index 0 |
| FileNames.RemoveOldSuffixOfSuffixed | src/ggrc_gdrive_integration/assets/javascripts/components/gdrive_picker_launcher.js:35-53 | stripping undoes suffixing for a non-empty name and a suffix with a single `_ggrc_` |
| FileNames.SuffixedMatches | src/ggrc_gdrive_integration/assets/javascripts/components/gdrive_picker_launcher.js:50-53 | a suffixed name matches the pattern again, at the dot after the suffix |
| FileNames.SuffixedStillMatches | src/ggrc_gdrive_integration/assets/javascripts/components/gdrive_picker_launcher.js:50-54 | a suffixed name matches the pattern again, with the same extension and the stripped name plus the new suffix as its name |
| FileNames.SecondPass | src/ggrc_gdrive_integration/assets/javascripts/components/gdrive_picker_launcher.js:39-55 | suffixing a name that carries the suffix keeps what stripping leaves and writes the suffix again |
| FileNames.Resuffix | src/ggrc_gdrive_integration/assets/javascripts/components/gdrive_picker_launcher.js:39-55 | the result of the first and of the second `addFileSuffix` on any matching name |
| FileNames.ResuffixReplaces | src/ggrc_gdrive_integration/assets/javascripts/components/gdrive_picker_launcher.js:35-55 | re-suffixing is idempotent when the name is non-empty and the suffix has no inner `_ggrc_` |
| FileNames.EmptyNameStacksSuffix | src/ggrc_gdrive_integration/assets/javascripts/components/gdrive_picker_launcher.js:35-55 | `.ext` gets the suffix twice on two passes: a leading `_ggrc_` is never removed |
| FileNames.InnerMarkerStacks | src/ggrc_gdrive_integration/assets/javascripts/components/gdrive_picker_launcher.js:35-55 | a suffix with an inner `_ggrc_` makes the second pass strictly longer than the first |
| FileNames.LowerWordSanitized | src/ggrc_gdrive_integration/assets/javascripts/components/gdrive_picker_launcher.js:32-34 | a word of lower-case letters is unchanged by sanitising |
| FileNames.MarkerAroundGgrc | src/ggrc_gdrive_integration/assets/javascripts/components/gdrive_picker_launcher.js:36-53 | helper: the `_ggrc_` that `removeOldSuffix` looks for is `ggrc` between two `_`, the way `addFileSuffix` joins its `ggrc` part |
| FileNames.GgrcSanitized | src/ggrc_gdrive_integration/assets/javascripts/components/gdrive_picker_launcher.js:46 | the type slug `ggrc` survives sanitising |
| FileNames.GgrcTypeSlugInnerMarker | src/ggrc_gdrive_integration/assets/javascripts/components/gdrive_picker_launcher.js:42-48 | type slugs `ggrc`, `y` put a second `_ggrc_` right after the instance slug |
| FileNames.GgrcTypeSlugStacks | src/ggrc_gdrive_integration/assets/javascripts/components/gdrive_picker_launcher.js:39-55 | with type slugs `ggrc`, `y` every re-suffixing makes the name grow |
| DriveUpload.OriginalName | src/ggrc_gdrive_integration/assets/javascripts/components/gdrive_picker_launcher.js:68-69 | the original name is the title, else the original file name, else the name |
| DriveUpload.OriginalNames | src/ggrc_gdrive_integration/assets/javascripts/components/gdrive_picker_launcher.js:64-71 | every picked id has an entry, and each entry is the original name of a file with that id |
| DriveUpload.LastFileWins | src/ggrc_gdrive_integration/assets/javascripts/components/gdrive_picker_launcher.js:64-71 | when several picked files share an id, the entry for that id is the original name of the last of them |
| DriveUpload.Failures | src/ggrc_gdrive_integration/assets/javascripts/components/gdrive_picker_launcher.js:100-111 | the response entries whose status is not 200, each as often as it occurs in the response, and nothing else |
| DriveUpload.FailuresKeepOrder | src/ggrc_gdrive_integration/assets/javascripts/components/gdrive_picker_launcher.js:100-111 | the failed entries keep their response order |
| DriveUpload.FailedIds | src/ggrc_gdrive_integration/assets/javascripts/components/gdrive_picker_launcher.js:101-102 | an id is failed if and only if some entry for it has a status other than 200 |
| DriveUpload.KeepSucceeded | src/ggrc_gdrive_integration/assets/javascripts/components/gdrive_picker_launcher.js:114-116 | the filter keeps each file of a non-failed id as often as it occurs and drops every file of a failed id |
| DriveUpload.KeepSucceededKeepsOrder | src/ggrc_gdrive_integration/assets/javascripts/components/gdrive_picker_launcher.js:114-116 | the survivors are a subsequence of the batch |
| DriveUpload.Suffixed | src/ggrc_gdrive_integration/assets/javascripts/components/gdrive_picker_launcher.js:66-74 | title and name both become the suffixed original name; id, original file name and parents are kept |
| DriveUpload.RenamedBatch | src/ggrc_gdrive_integration/assets/javascripts/components/gdrive_picker_launcher.js:66-74 | every file of the batch, in order, gets title and name set to its suffixed original name and keeps its id, original file name and parents |
| DriveUpload.RenameErrors | src/ggrc_gdrive_integration/assets/javascripts/components/gdrive_picker_launcher.js:103-105 | one error per failed entry, carrying the original name of its id, or no name for an unknown id |
| DriveUpload.SurvivorIsRenamed | src/ggrc_gdrive_integration/assets/javascripts/components/gdrive_picker_launcher.js:73-116 | every survivor is the renamed form of a file whose id did not fail |
| DriveUpload.RenamedSurvives | src/ggrc_gdrive_integration/assets/javascripts/components/gdrive_picker_launcher.js:73-116 | the renamed form of every file whose id did not fail survives |
| DriveUpload.SurvivorsOfBatch | src/ggrc_gdrive_integration/assets/javascripts/components/gdrive_picker_launcher.js:114-118 | there are survivors exactly when some id did not fail; the survivors are exactly the renamed non-failed files |
| DriveUpload.AddFilesSuffixes | src/ggrc_gdrive_integration/assets/javascripts/components/gdrive_picker_launcher.js:99-130 | resolves if and only if some file's id did not fail, with the renamed survivors and one error per failed entry; otherwise rejects with `Failed to rename uploaded files.` |
| DriveUpload.CopyFilesToParent | src/ggrc_gdrive_integration/assets/javascripts/components/gdrive_picker_launcher.js:254-262 | one step per file in order; a file is copied if and only if the parent folder is not among its parents |
| DriveUpload.CopyDecisionSettles | src/ggrc_gdrive_integration/assets/javascripts/components/gdrive_picker_launcher.js:254-267 | once each copy lives in the parent, deciding again copies nothing |
| Folders.IsOwnFolder | src/ggrc_gdrive_integration/assets/javascripts/components/gdrive_picker_launcher.js:280-292 | a match needs the node bound to the instance; a bound node without sub-mappings or with a `true` instance matches |
| Folders.OwnFolderHasPath | src/ggrc_gdrive_integration/assets/javascripts/components/gdrive_picker_launcher.js:280-292 | a successful search has a path of nodes bound to the instance, ending at a leaf or a `true` instance |
| Folders.PathMakesOwnFolder | src/ggrc_gdrive_integration/assets/javascripts/components/gdrive_picker_launcher.js:280-292 | such a path makes the search succeed |
| Folders.IsOwnFolderIffPath | src/ggrc_gdrive_integration/assets/javascripts/components/gdrive_picker_launcher.js:280-292 | `isOwnFolder` succeeds if and only if such a path exists |
| Folders.OtherInstanceNeverOwn | src/ggrc_gdrive_integration/assets/javascripts/components/gdrive_picker_launcher.js:281-283 | a mapping bound to another instance has no such path |
| Folders.FirstOwn | src/ggrc_gdrive_integration/assets/javascripts/components/gdrive_picker_launcher.js:316-321 | the first binding with an own-folder mapping, or none if and only if no binding has one |
| Folders.ChooseParentFolder | src/ggrc_gdrive_integration/assets/javascripts/components/gdrive_picker_launcher.js:305-321 | a warning exactly when there is no binding or the first folder has no `selfLink`; otherwise, when some binding has an own-folder mapping, the folder of the first such binding, and else the first binding's folder |
| Folders.ChoosesFirstOwn | src/ggrc_gdrive_integration/assets/javascripts/components/gdrive_picker_launcher.js:316-321 | with a reachable first folder, the upload goes into the first binding with an own-folder mapping, whatever bindings come before it |
| Folders.SecondBindingOwn | src/ggrc_gdrive_integration/assets/javascripts/components/gdrive_picker_launcher.js:316-321 | example: a first binding with no mappings and a second one bound to the instance upload into the second binding's folder |
| Folders.UploadBindings | src/ggrc_gdrive_integration/assets/javascripts/components/gdrive_picker_launcher.js:278-302 | the single-binding list is built exactly when the launcher's `instance` keeps a folder, and either list is read from the folder instance (`folder_instance`, else `instance`) |
| Folders.ParentFolder | src/ggrc_gdrive_integration/assets/javascripts/components/gdrive_picker_launcher.js:278-321 | the callback throws exactly when the instance keeps a folder and the folder instance keeps none; otherwise the folder instance's kept folder when reachable, or the choice over its bindings with own folders judged against the instance |
| Folders.TransientFolderWins | src/ggrc_gdrive_integration/assets/javascripts/components/gdrive_picker_launcher.js:278-310 | without a separate folder instance, a folder kept on the instance is the upload target whenever it is reachable, whatever its bindings |
| Folders.FolderInstanceDecides | src/ggrc_gdrive_integration/assets/javascripts/components/gdrive_picker_launcher.js:278-310 | with a separate folder instance, the folder used is the one kept on the folder instance, and the callback throws when it keeps none |
| Folders.LastArgument | src/ggrc_gdrive_integration/assets/javascripts/components/gdrive_picker_launcher.js:345 | `_.last(arguments)`: the last argument, or none for an empty argument list |
| Folders.FirstArgument | src/ggrc_gdrive_integration/assets/javascripts/components/gdrive_picker_launcher.js:233 | the first named parameter: the first argument, or none for an empty argument list |
| Folders.OnParentUploadFailure | src/ggrc_gdrive_integration/assets/javascripts/components/gdrive_picker_launcher.js:343-358 | reads the last argument: a 403 still signals success; any other error resets the items with its message; no error (or no argument) does nothing |
| Folders.OnPickerUploadFailure | src/ggrc_gdrive_integration/assets/javascripts/components/gdrive_picker_launcher.js:233-240 | reads the first argument: the picker flow always resets the items, and shows the first argument's message exactly when it is an error |
| Folders.FailureFlowsAgree | src/ggrc_gdrive_integration/assets/javascripts/components/gdrive_picker_launcher.js:233-358 | on a rejection with a single error other than 403, both flows reset the items and show the same message |
| Folders.FlowsReadDifferentArguments | src/ggrc_gdrive_integration/assets/javascripts/components/gdrive_picker_launcher.js:233-358 | on a rejection with two or more errors, the picker flow shows the first error's message and the parent flow the last's, so they can differ |
| Naming.Pick | src/ggrc-client/js_specs/models/cacheable_spec.js:48-70 | an explicit name wins; otherwise the derived one |
| Naming.ResolveNames | src/ggrc-client/js_specs/models/cacheable_spec.js:48-84 | each of the six names is the explicit value or the CamelCase, root and title form of `root_object` / `root_collection` |
| Naming.ExplicitNamesWin | src/ggrc-client/js_specs/models/cacheable_spec.js:48-70 | with all six names explicit the root names do not matter |
| Naming.CamelizeKeepsLetters | src/ggrc-client/js_specs/models/cacheable_spec.js:72-84 | camelising leaves no `_` and keeps every other character, in order, up to case |
| Naming.CamelCase | src/ggrc-client/js_specs/models/cacheable_spec.js:72-84 | the CamelCase form has no `_` and keeps every other character of the name, in order, up to case |
| Naming.HumanizeLength | src/ggrc-client/js_specs/models/cacheable_spec.js:72-84 | humanising keeps the length |
| Naming.HumanizeAt | src/ggrc-client/js_specs/models/cacheable_spec.js:72-84 | humanising, character by character: `_` becomes a space, a word's first character is upper-cased, any other is kept |
| Naming.TitleCase | src/ggrc-client/js_specs/models/cacheable_spec.js:72-84 | the title form has the name's length; at each position a `_` becomes a space, a character opening a word is upper-cased, and any other is kept |
| Naming.UnderscoreCamelizeTail | src/ggrc-client/js_specs/models/cacheable_spec.js:60-63 | underscoring the camelised tail of a snake token gives the tail back |
| Naming.SnakeCamelRoundTrip | src/ggrc-client/js_specs/models/cacheable_spec.js:74-77 | the table name is the underscored model name for any snake_case root |
| Naming.HumanizeWithoutSpaces | src/ggrc-client/js_specs/models/cacheable_spec.js:74-79 | the title form without its spaces is the CamelCase form |
| Naming.DerivedNamesAgree | src/ggrc-client/js_specs/models/cacheable_spec.js:72-84 | derived names agree: table = underscored model name, and title without spaces = model name |
| Naming.WordThroughTransforms | src/ggrc-client/js_specs/models/cacheable_spec.js:74-83 | a word without `_` passes through both transforms with only its first letter changed |
| Naming.TwoWords | src/ggrc-client/js_specs/models/cacheable_spec.js:74-83 | `a_b` becomes `AB` and `A B`, each word capitalised |
| NamingExamples.DummyModel | src/ggrc-client/js_specs/models/cacheable_spec.js:75-79 | `dummy_model` gives `DummyModel` and `Dummy Model` |
| NamingExamples.DummyModels | src/ggrc-client/js_specs/models/cacheable_spec.js:81-83 | `dummy_models` gives `DummyModels` and `Dummy Models` |
| NamingExamples.DummyModelNames | src/ggrc-client/js_specs/models/cacheable_spec.js:72-84 | the six default names of the dummy model |
| NamingExamples.RightNameOverrides | src/ggrc-client/js_specs/models/cacheable_spec.js:48-70 | explicit names are kept verbatim over `wrong_name` / `wrong_names` |
| ModelSetup.MergeDefaultAttributes | src/ggrc-client/js_specs/models/cacheable_spec.js:97-103 | the merged keys are the declared ones plus both timestamps; declared entries are kept; a missing timestamp becomes `datetime` |
| ModelSetup.MergeIdempotent | src/ggrc-client/js_specs/models/cacheable_spec.js:97-103 | merging the defaults twice adds nothing |
| ModelSetup.DeclaredTimestampsWin | src/ggrc-client/js_specs/models/cacheable_spec.js:97-103 | a type declaring both timestamps is left as declared |
| ModelSetup.DummyModelAttributes | src/ggrc-client/js_specs/models/cacheable_spec.js:97-103 | the dummy model ends up with `created_at`, `updated_at` and `dummy_attribute` |
| ModelSetup.FindAllEndpoint | src/ggrc-client/js_specs/models/cacheable_spec.js:86-90 | a declared endpoint is kept; otherwise the endpoint is `GET /api/` followed by the collection |
| ModelSetup.EndpointCollection | src/ggrc-client/js_specs/models/cacheable_spec.js:86-90 | recovers the collection from exactly the endpoints of default shape |
| ModelSetup.DefaultEndpointRoundTrip | src/ggrc-client/js_specs/models/cacheable_spec.js:86-90 | the default endpoint names its collection and nothing else |
| ModelSetup.FoosEndpoint | src/ggrc-client/js_specs/models/cacheable_spec.js:86-90 | example: the collection `foos` gives `GET /api/foos` |
| ModelSetup.Setup | src/ggrc-client/js_specs/models/cacheable_spec.js:47-103 | setup resolves the names, merges the defaults, defaults the endpoint to the collection and keeps the flag |
| ModelSetup.Register | src/ggrc-client/js_specs/models/cacheable_spec.js:106-113 | a type joins the registry if and only if it is custom-attributable; nothing is removed or added besides |
| ModelSetup.CheckFinder | src/ggrc-client/js_specs/models/cacheable_spec.js:150-156 | a finder fails exactly on the base type, with the exact message naming `findAll()` or `findPage()` |
| ModelSetup.FinderMessagesDiffer | src/ggrc-client/js_specs/models/cacheable_spec.js:150-242 | the two refusals are told apart by their message |
| ModelSetup.Unbox | src/ggrc-client/js_specs/models/cacheable_spec.js:158-180 | the list inside a collection envelope, a bare list as it is, and any other value as a list of one |
| ModelSetup.Envelope | src/ggrc-client/js_specs/models/cacheable_spec.js:158-168 | the backend's collection payload has the envelope shape |
| ModelSetup.EnvelopeRoundTrip | src/ggrc-client/js_specs/models/cacheable_spec.js:158-168 | unboxing an enveloped list gives the list back |
| ModelSetup.BareObjectIsSingleton | src/ggrc-client/js_specs/models/cacheable_spec.js:170-180 | an object without the envelope key is a collection of one |
| ModelSetup.DummyModelsPayloads | src/ggrc-client/js_specs/models/cacheable_spec.js:158-180 | both test payloads give the single item `{id: 1}` |
| Batching.Fill | src/ggrc-client/js_specs/models/cacheable_spec.js:186-232 | every item taken was read within 100 ms of the batch's opening; a batch closes early only on a reading at least 100 ms after it |
| Batching.Split | src/ggrc-client/js_specs/models/cacheable_spec.js:186-232 | no batch is empty, and the batches concatenated are the items in server order |
| Batching.FirstBatchBudget | src/ggrc-client/js_specs/models/cacheable_spec.js:186-232 | the first batch took only items read inside the budget, and was closed by a reading past it |
| Batching.StoppedClockOneBatch | src/ggrc-client/js_specs/models/cacheable_spec.js:186-232 | a clock that does not move yields a single batch |
| Batching.TestClockTicks | src/ggrc-client/js_specs/models/cacheable_spec.js:196-203 | the closed-form clock is the test's clock, one tick per reading |
| Batching.ExampleFirstFill | src/ggrc-client/js_specs/models/cacheable_spec.js:215-221 | the first batch takes two items after the first (ids 1 to 3) |
| Batching.ExampleSecondFill | src/ggrc-client/js_specs/models/cacheable_spec.js:222-226 | the second batch takes two items after the first (ids 4 to 6) |
| Batching.ExampleLastBatch | src/ggrc-client/js_specs/models/cacheable_spec.js:227-229 | the last item comes alone |
| Batching.ExampleLaterBatches | src/ggrc-client/js_specs/models/cacheable_spec.js:222-229 | items 4 to 7 come as `[4,5,6]` and `[7]` |
| Batching.SevenItemsSplit | src/ggrc-client/js_specs/models/cacheable_spec.js:186-232 | seven items under the test clock come as `[1,2,3]`, `[4,5,6]`, `[7]` |
| Refresh.OnRefresh | src/ggrc-client/js_specs/models/cacheable_spec.js:265-277 | a call fetches if and only if the window is open, and a fetch restarts the window |
| Refresh.Run | src/ggrc-client/js_specs/models/cacheable_spec.js:265-277 | one served request number per call, in call order |
| Refresh.RunCons | src/ggrc-client/js_specs/models/cacheable_spec.js:265-277 | the first call is stepped first, and the rest run from the state it leaves |
| Refresh.RunSnoc | src/ggrc-client/js_specs/models/cacheable_spec.js:265-277 | one more call leaves the earlier calls' numbers alone and receives the latest request, or a new one exactly when the window is open in the state the earlier calls left |
| Refresh.RunPrefix | src/ggrc-client/js_specs/models/cacheable_spec.js:265-277 | later calls do not change what earlier calls receive |
| Refresh.ServedByCall | src/ggrc-client/js_specs/models/cacheable_spec.js:265-277 | call `i` receives the latest request made before it, plus one exactly when the state left by the earlier calls has its window open at call `i`'s time |
| Refresh.WithinWindowShares | src/ggrc-client/js_specs/models/cacheable_spec.js:265-277 | calls inside the window of the last fetch issue nothing and all receive that fetch |
| Refresh.OneWindowOneFetch | src/ggrc-client/js_specs/models/cacheable_spec.js:265-277 | any burst within one window makes exactly one request, shared by all calls |
| Refresh.AfterWindowFetches | src/ggrc-client/js_specs/models/cacheable_spec.js:268-273 | a call a full window after the last fetch fetches again |
| Refresh.ThrottleScenario | src/ggrc-client/js_specs/models/cacheable_spec.js:265-277 | three calls at once and one 1000 ms later make two requests |
| Refresh.RefreshRequest | src/ggrc-client/js_specs/models/cacheable_spec.js:255-263 | a GET on `selfLink`, or on `href` when there is none |
| Refresh.HrefRequest | src/ggrc-client/js_specs/models/cacheable_spec.js:244-263 | an instance with only `href` is fetched from it |
| Refresh.CompleteRefresh | src/ggrc-client/js_specs/models/cacheable_spec.js:279-286 | the response wins over the old attributes, untouched attributes stay, and the backup equals the merged state |
| Refresh.RefreshIdempotent | src/ggrc-client/js_specs/models/cacheable_spec.js:279-286 | applying the same response twice changes nothing more |
| Refresh.RefreshKeepsUntouched | src/ggrc-client/js_specs/models/cacheable_spec.js:279-286 | a local attribute absent from the response survives into the backup |
| CustomAttrs.ToNumber | src/ggrc-client/js_specs/models/cacheable_spec.js:389-408 | numbers stay, `""` is 0, a string with a non-digit is NaN |
| CustomAttrs.Decimal | src/ggrc-client/js_specs/models/cacheable_spec.js:389-408 | the decimal spelling of a number is a non-empty run of digits |
| CustomAttrs.DecimalRoundTrip | src/ggrc-client/js_specs/models/cacheable_spec.js:389-408 | reading back a number's decimal spelling gives the number |
| CustomAttrs.StringIdIsNumber | src/ggrc-client/js_specs/models/cacheable_spec.js:389-408 | the string spelling of an id addresses the same object as the id |
| CustomAttrs.BuildObjects | src/ggrc-client/js_specs/models/cacheable_spec.js:343-354 | one object per definition, in order, with its id and no value |
| CustomAttrs.FindIndex | src/ggrc-client/js_specs/models/cacheable_spec.js:356-367 | the first position of the id, or none if and only if no object has it |
| CustomAttrs.GetObject | src/ggrc-client/js_specs/models/cacheable_spec.js:356-367 | an object of the coerced id, or none if and only if there is no such object |
| CustomAttrs.SetObject | src/ggrc-client/js_specs/models/cacheable_spec.js:369-388 | fails if and only if no object has the id; otherwise the same objects with the same ids |
| CustomAttrs.SetThenGet | src/ggrc-client/js_specs/models/cacheable_spec.js:369-388 | reading back by the same id gives the written value |
| CustomAttrs.FindIndexAfterSet | src/ggrc-client/js_specs/models/cacheable_spec.js:369-388 | a write moves no id |
| CustomAttrs.SetLeavesOthers | src/ggrc-client/js_specs/models/cacheable_spec.js:369-388 | a write leaves what every other id reads unchanged |
| CustomAttrs.StringKeySetsNumber | src/ggrc-client/js_specs/models/cacheable_spec.js:389-408 | writing through `"2"` is writing through 2 |
| CustomAttrs.NewInstance | src/ggrc-client/js_specs/models/cacheable_spec.js:343-354 | a new instance has one object per definition and its type's flag |
| CustomAttrs.FlagReadAtCallTime | src/ggrc-client/js_specs/models/cacheable_spec.js:411-428 | example: an instance whose type's flag is cleared after creation answers `false`, and one whose flag is set answers `true` |
| CustomAttrs.CustomAttr | src/ggrc-client/js_specs/models/cacheable_spec.js:289-341 | throws on a non-attributable instance; otherwise all objects, one object, or a write: it succeeds exactly when the id has an object, reads back, and its instance is the one `_setCustomAttr` (`SetObject`) produces, so the other objects and the type are kept |
| CustomAttrs.ReadRefusedIffNotAttributable | src/ggrc-client/js_specs/models/cacheable_spec.js:289-304 | a read fails if and only if the type is not custom-attributable |
| CustomAttrs.DefinitionsExample | src/ggrc-client/js_specs/models/cacheable_spec.js:356-408 | definitions 1, 2, 3: id 2 addresses the second object, and a write through `"2"` reads back through 2 |

## Left out

- Text.LowerCase: lower-cases ASCII letters only; `toLowerCase` also maps non-ASCII letters, and its Unicode tables are not modelled. Full `toLowerCase` can lengthen a string (`İ`, U+0130, becomes two code units), so the length bound of `Slug.Sanitize` holds for this ASCII model, not for every JavaScript string.
- CustomAttrs.ToNumber: models `Number` for the empty string and for strings of decimal digits only. Whitespace, signs, hexadecimal, fractions and exponents are treated as NaN.
- CustomAttrs.SetObject: writing to an id that no object has is an error here. The Cacheable implementation file is not part of this model, and the tests do not say what it does then.
- Batching.Split: a batch always takes the item it was opened for. A clock that jumps past 100 ms between opening a batch and reading for its first item could flush an empty batch in the implementation.
- Batching.Fill: the Cacheable implementation file is not part of this model, so the order of clock readings is a choice made to reproduce the batches the test at `cacheable_spec.js` lines 186-232 expects. A batch opened at reading `k` starts its budget at reading `k`. Reading `k + 1` belongs to the batch's first item, which is always taken without a check. The further items are checked against readings `k + 2` onward. The reading that closes a batch is used up, and the next batch opens at the reading after it. Under the test's clock this reproduces `[1,2,3]`, `[4,5,6]`, `[7]` only when two readings (0 and 1) go unused before the first batch opens (`Batching.SevenItemsSplit` uses `k = 2`). That departs from the comment at line 196 of the test, which says the clock is read once before modelizing: with one unused reading, this scheme gives a first batch of `[1,2,3,4]`.
- Refresh.OnRefresh: a leading-edge window only. A trailing call of a `throttle` helper, which would fire at the end of the window, is not modelled.
- DriveUpload.Failures: response entries are taken in the order given. The source iterates over the keys of a response object, and that key order is not modelled.
- Folders.IsOwnFolder: object identity is modelled as a natural-number id.
- Folders.FailureFlowsAgree: the two flows are shown to agree only for a rejection with a single argument. With two or more, the picker flow reads the first and the parent flow the last (`Folders.FlowsReadDifferentArguments`), so they can show different messages.
- Folders.ParentFolder: the thrown `TypeError` is a result value (`UndefinedFolder`). Where the exception goes afterwards, into the deferred's `done` handler machinery, is not modelled.
- DriveUpload.OriginalName: the empty string stands for a missing attribute. When title, original file name and name are all `undefined`, the source passes `undefined` to `addFileSuffix`, and `fileName.replace` throws a `TypeError` (line 50). The model gives such a file the empty name instead, which `addFileSuffix` returns unchanged.
- Slug.Sanitize: a slug is always a string here. A missing instance slug (line 41) or type-object slug (line 46) makes `slug.toLowerCase()` throw a `TypeError` at line 33, which the model does not represent.
- Refresh.Run: its own contract fixes one number per call. Which request each call receives is stated by `Refresh.ServedByCall`, with `Refresh.RunPrefix` and `Refresh.RunSnoc`.
- The Drive SDK calls (batch rename, `copyToParent`, `uploadFiles`, picker construction), the deferred/promise plumbing, `handle_file_upload`, `beforeCreateHandler`, notifier calls and DOM events: vendor and UI code, whose results are inputs here.
- `addFilesSuffixes` sets both `title` and `name` to the same suffixed name. The model keeps both fields but does not model the PATCH request bodies.
- Mixins (`mixins: [...]`), `process_args`, `resolveDeferredBindings`, `updateCaObjects`, the identity map and `findPage`'s own paging: these are not among the modelled operations. Only the `findPage` guard is modelled.
- The initial value of a custom-attribute object: a new object carries no value, and the definition's own `value` is not copied.

=== FILE: batching.dfy ===
/**
 * The batched list materializer of the Cacheable model base: converted
 * items are pushed into the observable list in batches, a batch staying
 * open while less than 100 ms have passed since it was opened. The wall
 * clock is an explicit input: `now(k)` is the value of the k-th reading.
 */
module Batching {

  /** The time budget of one batch, in milliseconds. */
  const Budget: int := 100

  /** The successive readings of the wall clock. */
  type Clock = nat -> int

  /** Filling an open batch from reading `k` on: before each of the
      `remaining` items the clock is read, and the item joins the batch while
      less than `Budget` has passed since `start`. Gives how many items joined
      and the index of the next unread reading; the reading that closes the
      batch is used up. */
  function Fill(remaining: nat, now: Clock, start: int, k: nat): (r: (nat, nat))
    ensures r.0 <= remaining
    ensures forall j :: k <= j < k + r.0 ==> now(j) - start < Budget
    ensures r.0 < remaining ==> now(k + r.0) - start >= Budget && r.1 == k + r.0 + 1
    ensures r.0 == remaining ==> r.1 == k + r.0
    decreases remaining
  {
    if remaining == 0 then (0, k)
    else if now(k) - start < Budget then
      var rest := Fill(remaining - 1, now, start, k + 1);
      (rest.0 + 1, rest.1)
    else (0, k + 1)
  }

  /** The batches of `items`, the first one opened at reading `k`: opening
      a batch reads the clock, its first item is read for and always taken,
      and the batch is then filled. */
  function Split<T>(items: seq<T>, now: Clock, k: nat): (batches: seq<seq<T>>)
    ensures forall b :: 0 <= b < |batches| ==> batches[b] != []
    ensures Flatten(batches) == items
    decreases |items|
  {
    if items == [] then []
    else
      var f := Fill(|items| - 1, now, now(k), k + 2);
      var rest := Split(items[f.0 + 1..], now, f.1);
      assert items == items[..f.0 + 1] + items[f.0 + 1..];
      [items[..f.0 + 1]] + rest
  }

  /** The batches one after the other. */
  function Flatten<T>(batches: seq<seq<T>>): seq<T>
  {
    if batches == [] then [] else batches[0] + Flatten(batches[1..])
  }

  /** With more than one item, the first batch ends because it ran out of
      time: it is closed by a reading at least `Budget` after its opening,
      and the items it took were all read within the budget. */
  lemma FirstBatchBudget<T>(items: seq<T>, now: Clock, k: nat)
    requires |items| > 1
    ensures var batches := Split(items, now, k);
            var n := |batches[0]|;
            && (forall j :: k + 2 <= j < k + 2 + (n - 1) ==> now(j) - now(k) < Budget)
            && (n < |items| ==> now(k + 2 + (n - 1)) - now(k) >= Budget)
  {
    var f := Fill(|items| - 1, now, now(k), k + 2);
    assert Split(items, now, k)[0] == items[..f.0 + 1];
  }

  /** A clock that does not move puts every item into one batch. */
  lemma {:induction false} StoppedClockOneBatch<T>(items: seq<T>, now: Clock, k: nat)
    requires items != []
    requires forall j :: now(j) == now(k)
    ensures Split(items, now, k) == [items]
  {
    var f := Fill(|items| - 1, now, now(k), k + 2);
    assert now(k + 2 + f.0) == now(k);
    assert f.0 == |items| - 1;
    assert items[..f.0 + 1] == items;
  }

  /** One tick of the clock of the batching example: it counts up by one and
      jumps ahead 100 ms whenever it reaches a multiple of five. */
  function TestTick(st: int): int
  {
    if (st + 1) % 5 == 0 then st + 101 else st + 1
  }

  /** The k-th reading of the batching example: the clock starts at 3 and
      has ticked `k + 1` times, jumping at every fifth value. */
  function TestClock(k: nat): int
  {
    4 + k + 100 * ((k + 4) / 5)
  }

  /** Division by five, from a quotient and remainder. */
  lemma DivFive(a: int, q: int, r: int)
    requires a == 5 * q + r && 0 <= r < 5
    ensures a / 5 == q && a % 5 == r
  {
  }

  /** Each reading of the example clock is one tick after the previous one. */
  lemma TestClockTicks(k: nat)
    ensures TestClock(0) == TestTick(3)
    ensures TestClock(k + 1) == TestTick(TestClock(k))
  {
    var q, r := (k + 4) / 5, (k + 4) % 5;
    DivFive(k + 4, q, r);
    var st := 4 + k + 100 * q;
    assert TestClock(k) == st;
    if r == 4 {
      DivFive(k + 5, q + 1, 0);
      DivFive(st + 1, 21 * q + 1, 0);
    } else {
      DivFive(k + 5, q, r + 1);
      DivFive(st + 1, 21 * q, r + 1);
    }
  }

  lemma ExampleFirstFill()
    ensures Fill(6, TestClock, 106, 4) == (2, 7)
  {
    assert Fill(4, TestClock, 106, 6) == (0, 7);
    assert Fill(5, TestClock, 106, 5) == (1, 7);
  }

  lemma ExampleSecondFill()
    ensures Fill(3, TestClock, 211, 9) == (2, 12)
  {
    assert Fill(1, TestClock, 211, 11) == (0, 12);
    assert Fill(2, TestClock, 211, 10) == (1, 12);
  }

  lemma ExampleLastBatch()
    ensures Split([7], TestClock, 12) == [[7]]
  {
    assert Fill(0, TestClock, 316, 14) == (0, 14);
    assert [7][..1] == [7];
    assert [7][1..] == [];
  }

  lemma ExampleLaterBatches()
    ensures Split([4, 5, 6, 7], TestClock, 7) == [[4, 5, 6], [7]]
  {
    var items := [4, 5, 6, 7];
    ExampleSecondFill();
    ExampleLastBatch();
    assert items[..3] == [4, 5, 6];
    assert items[3..] == [7];
  }

  /** Seven items read with the example clock, two readings having been
      taken before the materializer starts, come in three batches. */
  lemma SevenItemsSplit()
    ensures Split([1, 2, 3, 4, 5, 6, 7], TestClock, 2) == [[1, 2, 3], [4, 5, 6], [7]]
  {
    var items := [1, 2, 3, 4, 5, 6, 7];
    ExampleFirstFill();
    ExampleLaterBatches();
    assert items[..3] == [1, 2, 3];
    assert items[3..] == [4, 5, 6, 7];
  }
}

=== FILE: custom_attrs.dfy ===
/**
 * The custom-attribute store of a Cacheable instance: one attribute object
 * per custom-attribute definition, read and written by definition id
 * (`_getAllCustomAttr`, `_getCustomAttr`, `_setCustomAttr`), the `customAttr`
 * entry point that dispatches on its arguments, and `isCustomAttributable`.
 */
module CustomAttrs {
  import opened Outcomes
  import opened Text
  import opened ModelSetup

  /** A custom-attribute definition, known by its numeric id. */
  datatype Definition = Definition(id: int)

  /** The attribute object of one definition; `None` is a value never set. */
  datatype CaObject = CaObject(customAttributeId: int, value: Option<string>)

  /** An id as a caller passes it: a number, or a string to be read as one. */
  datatype CaKey = NumKey(n: int) | StrKey(s: string)

  /** The value of a string of decimal digits. */
  function DecimalValue(s: string): (v: nat)
    requires forall i :: 0 <= i < |s| ==> IsDigit(s[i])
    decreases |s|
  {
    if s == [] then 0
    else
      assert IsDigit(s[|s| - 1]);
      DecimalValue(s[..|s| - 1]) * 10 + (s[|s| - 1] as int - '0' as int)
  }

  /** JavaScript's `Number` on a string, for the forms an id takes: the
      empty string is 0, a string of decimal digits is its value, and
      anything else is `NaN`, which equals no id. */
  function ToNumber(k: CaKey): (r: Option<int>)
    ensures k.NumKey? ==> r == Some(k.n)
    ensures k.StrKey? && k.s == "" ==> r == Some(0)
    ensures k.StrKey? && (exists i :: 0 <= i < |k.s| && !IsDigit(k.s[i])) ==> r.None?
  {
    match k
    case NumKey(n) => Some(n)
    case StrKey(s) => if forall i :: 0 <= i < |s| ==> IsDigit(s[i]) then Some(DecimalValue(s)) else None
  }

  /** The decimal notation of a natural number, most significant digit first. */
  function Decimal(n: nat): (s: string)
    ensures s != [] && forall i :: 0 <= i < |s| ==> IsDigit(s[i])
  {
    var d := ['0' + (n % 10) as char];
    if n < 10 then d else Decimal(n / 10) + d
  }

  /** Reading back the decimal notation of a number gives the number. */
  lemma {:induction false} DecimalRoundTrip(n: nat)
    ensures DecimalValue(Decimal(n)) == n
  {
    var s := Decimal(n);
    var last := '0' + (n % 10) as char;
    if n >= 10 {
      DecimalRoundTrip(n / 10);
      assert s[..|s| - 1] == Decimal(n / 10);
    }
    assert s[|s| - 1] == last;
  }

  /** The string spelling of a non-negative id addresses the same object as the id. */
  lemma StringIdIsNumber(n: nat)
    ensures ToNumber(StrKey(Decimal(n))) == ToNumber(NumKey(n))
  {
    DecimalRoundTrip(n);
  }

  /** `_getAllCustomAttr`: one object per definition, in definition order. */
  function BuildObjects(defs: seq<Definition>): (objs: seq<CaObject>)
    ensures |objs| == |defs|
    ensures forall k :: 0 <= k < |defs| ==> objs[k].customAttributeId == defs[k].id
    ensures forall k :: 0 <= k < |defs| ==> objs[k].value.None?
  {
    seq(|defs|, k requires 0 <= k < |defs| => CaObject(defs[k].id, None))
  }

  /** The position of the first object with the given id. */
  function FindIndex(objs: seq<CaObject>, id: int): (r: Option<nat>)
    ensures r.Some? ==> r.value < |objs| && objs[r.value].customAttributeId == id
    ensures r.Some? ==> forall k :: 0 <= k < r.value ==> objs[k].customAttributeId != id
    ensures r.None? <==> forall k :: 0 <= k < |objs| ==> objs[k].customAttributeId != id
  {
    if objs == [] then None
    else if objs[0].customAttributeId == id then Some(0)
    else match FindIndex(objs[1..], id)
      case None => None
      case Some(i) => Some(i + 1)
  }

  /** `_getCustomAttr`: the first object of the id, the key read as a number. */
  function GetObject(objs: seq<CaObject>, key: CaKey): (r: Option<CaObject>)
    ensures r.Some? ==> r.value in objs && Some(r.value.customAttributeId) == ToNumber(key)
    ensures r.None? <==> ToNumber(key).None? || forall k :: 0 <= k < |objs| ==> Some(objs[k].customAttributeId) != ToNumber(key)
  {
    match ToNumber(key)
    case None => None
    case Some(id) =>
      match FindIndex(objs, id)
      case None => None
      case Some(i) => Some(objs[i])
  }

  /** Why a custom-attribute call fails. */
  datatype CaError = NotCustomAttributable | NoSuchAttribute

  /** `_setCustomAttr`: the first object of the id gets the value; an id
      that addresses no object is an error. */
  function SetObject(objs: seq<CaObject>, key: CaKey, value: string): (r: Result<seq<CaObject>, CaError>)
    ensures r.Failure? <==> GetObject(objs, key).None?
    ensures r.Failure? ==> r.error == NoSuchAttribute
    ensures r.Success? ==> |r.value| == |objs|
    ensures r.Success? ==> forall k :: 0 <= k < |objs| ==> r.value[k].customAttributeId == objs[k].customAttributeId
  {
    match ToNumber(key)
    case None => Failure(NoSuchAttribute)
    case Some(id) =>
      match FindIndex(objs, id)
      case None => Failure(NoSuchAttribute)
      case Some(i) => Success(objs[i := objs[i].(value := Some(value))])
  }

  /** Writing a value and reading it back by the same id gives the value. */
  lemma SetThenGet(objs: seq<CaObject>, key: CaKey, value: string)
    requires SetObject(objs, key, value).Success?
    ensures GetObject(SetObject(objs, key, value).value, key) == Some(CaObject(ToNumber(key).value, Some(value)))
  {
    var id := ToNumber(key).value;
    var i := FindIndex(objs, id).value;
    var objs' := SetObject(objs, key, value).value;
    assert objs' == objs[i := objs[i].(value := Some(value))];
    assert FindIndex(objs', id) == Some(i) by {
      FindIndexAfterSet(objs, i, Some(value));
    }
  }

  /** Writing the value of one object leaves the positions of all ids as they were. */
  lemma {:induction false} FindIndexAfterSet(objs: seq<CaObject>, i: nat, v: Option<string>)
    requires i < |objs|
    ensures forall id :: FindIndex(objs[i := objs[i].(value := v)], id) == FindIndex(objs, id)
    decreases |objs|
  {
    var objs' := objs[i := objs[i].(value := v)];
    if i > 0 {
      FindIndexAfterSet(objs[1..], i - 1, v);
      assert objs'[1..] == objs[1..][i - 1 := objs[1..][i - 1].(value := v)];
    } else {
      assert objs'[1..] == objs[1..];
    }
  }

  /** Writing one id leaves what every other id reads unchanged. */
  lemma SetLeavesOthers(objs: seq<CaObject>, key: CaKey, value: string, other: CaKey)
    requires SetObject(objs, key, value).Success?
    requires ToNumber(other) != ToNumber(key)
    ensures GetObject(SetObject(objs, key, value).value, other) == GetObject(objs, other)
  {
    var id := ToNumber(key).value;
    var i := FindIndex(objs, id).value;
    FindIndexAfterSet(objs, i, Some(value));
    var objs' := SetObject(objs, key, value).value;
    assert objs' == objs[i := objs[i].(value := Some(value))];
    match ToNumber(other)
    case None =>
    case Some(o) =>
      match FindIndex(objs, o)
      case None =>
      case Some(j) => assert j != i;
  }

  /** The string `"2"` and the number 2 write the same object. */
  lemma StringKeySetsNumber(objs: seq<CaObject>, value: string)
    ensures SetObject(objs, StrKey("2"), value) == SetObject(objs, NumKey(2), value)
  {
    assert ToNumber(StrKey("2")) == Some(2) by {
      assert DecimalValue("2") == DecimalValue([]) * 10 + ('2' as int - '0' as int);
    }
  }

  /** An instance of a model type, with its attribute objects. */
  datatype Instance = Instance(modelType: ModelType, caObjects: seq<CaObject>)

  /** `isCustomAttributable`: the flag of the instance's type, as it is at
      the time of the call. */
  function IsCustomAttributable(inst: Instance): (r: bool)
    ensures r <==> inst.modelType.isCustomAttributable
  {
    inst.modelType.isCustomAttributable
  }

  /** A new instance: its attribute objects are built from the definitions. */
  function NewInstance(t: ModelType, defs: seq<Definition>): (inst: Instance)
    ensures IsCustomAttributable(inst) == t.isCustomAttributable
    ensures |inst.caObjects| == |defs|
    ensures forall k :: 0 <= k < |defs| ==> inst.caObjects[k].customAttributeId == defs[k].id
  {
    Instance(t, BuildObjects(defs))
  }

  /** Clearing the type's flag after an instance exists turns the instance's
      answer to false as well. */
  lemma FlagReadAtCallTime(inst: Instance)
    ensures !IsCustomAttributable(inst.(modelType := inst.modelType.(isCustomAttributable := false)))
    ensures IsCustomAttributable(inst.(modelType := inst.modelType.(isCustomAttributable := true)))
  {
  }

  /** The three ways `customAttr` is called: no argument, an id, or an id and a value. */
  datatype CaCall = GetAll | GetOne(key: CaKey) | SetOne(key: CaKey, value: string)

  datatype CaReply =
    | AllObjects(objs: seq<CaObject>)
    | OneObject(obj: Option<CaObject>)
    | Updated(inst: Instance)

  /** `customAttr`: an error on an instance that is not custom-attributable;
      otherwise all objects, one object, or the instance after the write. */
  function CustomAttr(inst: Instance, call: CaCall): (r: Result<CaReply, CaError>)
    ensures !IsCustomAttributable(inst) ==> r == Failure(NotCustomAttributable)
    ensures IsCustomAttributable(inst) && call.GetAll? ==> r == Success(AllObjects(inst.caObjects))
    ensures IsCustomAttributable(inst) && call.GetOne? ==> r == Success(OneObject(GetObject(inst.caObjects, call.key)))
    ensures IsCustomAttributable(inst) && call.SetOne? ==>
              (r.Success? <==> GetObject(inst.caObjects, call.key).Some?)
    ensures r.Success? && call.SetOne? ==>
              r.value.Updated? && r.value.inst.modelType == inst.modelType
              && GetObject(r.value.inst.caObjects, call.key) == Some(CaObject(ToNumber(call.key).value, Some(call.value)))
    ensures IsCustomAttributable(inst) && call.SetOne? && r.Success? ==>
              SetObject(inst.caObjects, call.key, call.value).Success?
              && r.value.inst == inst.(caObjects := SetObject(inst.caObjects, call.key, call.value).value)
  {
    if !IsCustomAttributable(inst) then Failure(NotCustomAttributable)
    else match call
      case GetAll => Success(AllObjects(inst.caObjects))
      case GetOne(key) => Success(OneObject(GetObject(inst.caObjects, key)))
      case SetOne(key, value) =>
        match SetObject(inst.caObjects, key, value)
        case Failure(e) => Failure(e)
        case Success(objs) =>
          SetThenGet(inst.caObjects, key, value);
          Success(Updated(inst.(caObjects := objs)))
  }

  /** Definitions 1, 2, 3: the object of id 2 is the second one, and a
      value written through the string `"2"` is read back through the number 2. */
  lemma DefinitionsExample(t: ModelType, value: string)
    requires t.isCustomAttributable
    ensures var inst := NewInstance(t, [Definition(1), Definition(2), Definition(3)]);
            && GetObject(inst.caObjects, NumKey(2)) == Some(CaObject(2, None))
            && CustomAttr(inst, SetOne(StrKey("2"), value)).Success?
            && GetObject(CustomAttr(inst, SetOne(StrKey("2"), value)).value.inst.caObjects, NumKey(2))
               == Some(CaObject(2, Some(value)))
  {
    var inst := NewInstance(t, [Definition(1), Definition(2), Definition(3)]);
    assert inst.caObjects == [CaObject(1, None), CaObject(2, None), CaObject(3, None)];
    assert FindIndex(inst.caObjects, 2) == Some(1);
    StringKeySetsNumber(inst.caObjects, value);
  }

  /** Reading through `customAttr` fails exactly when the type is not
      custom-attributable. */
  lemma ReadRefusedIffNotAttributable(inst: Instance, call: CaCall)
    requires !call.SetOne?
    ensures CustomAttr(inst, call).Failure? <==> !inst.modelType.isCustomAttributable
  {
  }
}

=== FILE: drive_upload.dfy ===
/**
 * Upload bookkeeping of the Drive picker launcher: renaming a batch of
 * picked files and sorting the batch response into survivors and error
 * entries (`addFilesSuffixes`), and deciding per file whether it has to be
 * copied into the parent folder (`copyFilesToParent`). The Drive requests
 * themselves are vendor calls; their results are inputs here.
 */
module DriveUpload {
  import opened Outcomes
  import opened FileNames

  /** A picked Drive file. The empty string stands for a missing attribute. */
  datatype DriveFile = DriveFile(
    id: string,
    title: string,
    originalFilename: string,
    name: string,
    parentIds: seq<string>)

  /** One entry of the batch rename response, keyed by the request id, which is the file id. */
  datatype RenameResult = RenameResult(fileId: string, status: int)

  /** The error descriptor shown for a file that failed to be renamed; the
      name is missing when the response names a file that was not in the batch. */
  datatype RenameError = RenameError(fileName: Option<string>)

  datatype RenameOutcome =
    | Resolved(files: seq<DriveFile>, errors: seq<RenameError>)
    | Rejected(message: string)

  const RenameFailedMessage: string := "Failed to rename uploaded files."

  /** Status of a successful rename request. */
  const StatusOk: int := 200

  /** The name a file had when picked: its title, else its original file name, else its name. */
  function OriginalName(f: DriveFile): (r: string)
    ensures f.title != "" ==> r == f.title
    ensures f.title == "" && f.originalFilename != "" ==> r == f.originalFilename
    ensures f.title == "" && f.originalFilename == "" ==> r == f.name
  {
    if f.title != "" then f.title
    else if f.originalFilename != "" then f.originalFilename
    else f.name
  }

  /** No file after position `k` has the id of the file at `k`. */
  predicate LastWithId(files: seq<DriveFile>, k: int)
    requires 0 <= k < |files|
  {
    forall j :: k < j < |files| ==> files[j].id != files[k].id
  }

  /** The id-to-original-name table; a later file with the same id overwrites an earlier one. */
  function OriginalNames(files: seq<DriveFile>): (names: map<string, string>)
    ensures forall k :: 0 <= k < |files| ==> files[k].id in names
    ensures forall id {:trigger names[id]} :: id in names ==> exists k :: 0 <= k < |files| && files[k].id == id && names[id] == OriginalName(files[k])
  {
    if files == [] then map[]
    else
      var last := files[|files| - 1];
      var earlier := OriginalNames(files[..|files| - 1]);
      assert forall k :: 0 <= k < |files| - 1 ==> files[..|files| - 1][k] == files[k];
      earlier[last.id := OriginalName(last)]
  }

  /** The file after its title and name are set to the suffixed original name. */
  function Suffixed(f: DriveFile, instanceSlug: string, typeSlugs: seq<string>): (r: DriveFile)
    ensures r.title == r.name == AddFileSuffix(OriginalName(f), instanceSlug, typeSlugs)
    ensures r.id == f.id && r.originalFilename == f.originalFilename && r.parentIds == f.parentIds
  {
    var newName := AddFileSuffix(OriginalName(f), instanceSlug, typeSlugs);
    f.(title := newName, name := newName)
  }

  /** Looking an id up after the last file is added: the last file's name
      for its own id, the earlier entry for any other. */
  lemma OriginalNamesLast(files: seq<DriveFile>, id: string)
    requires files != []
    requires id == files[|files| - 1].id || id in OriginalNames(files[..|files| - 1])
    ensures id in OriginalNames(files)
    ensures OriginalNames(files)[id]
            == if id == files[|files| - 1].id then OriginalName(files[|files| - 1])
               else OriginalNames(files[..|files| - 1])[id]
  {
  }

  /** When several files share an id, the last of them wins: the entry of
      an id is the original name of the last file with that id. */
  lemma {:induction false} LastFileWins(files: seq<DriveFile>, k: int)
    requires 0 <= k < |files| && LastWithId(files, k)
    ensures OriginalNames(files)[files[k].id] == OriginalName(files[k])
    decreases |files|
  {
    var n := |files| - 1;
    var pre := files[..n];
    var id := files[k].id;
    if k < n {
      assert files[n].id != id;
      assert id in OriginalNames(pre) && OriginalNames(pre)[id] == OriginalName(files[k]) by {
        assert pre[k] == files[k];
        assert LastWithId(pre, k) by {
          forall j | k < j < |pre| ensures pre[j].id != pre[k].id {
            assert pre[j] == files[j];
          }
        }
        LastFileWins(pre, k);
      }
      OriginalNamesLast(files, id);
    } else {
      OriginalNamesLast(files, id);
    }
  }

  /** A sequence holding, with their multiplicities, exactly the entries of
      `results` whose status is not 200, holds only such entries and all of
      them. */
  lemma FilteredMembers(r: seq<RenameResult>, results: seq<RenameResult>)
    requires forall x: RenameResult :: multiset(r)[x] == if x.status != StatusOk then multiset(results)[x] else 0
    ensures forall k :: 0 <= k < |r| ==> r[k].status != StatusOk && r[k] in results
    ensures forall x :: x in results && x.status != StatusOk ==> x in r
  {
  }

  /** The response entries whose status is not 200, in response order. */
  function Failures(results: seq<RenameResult>): (r: seq<RenameResult>)
    ensures forall k :: 0 <= k < |r| ==> r[k].status != StatusOk && r[k] in results
    ensures forall x :: x in results && x.status != StatusOk ==> x in r
    ensures forall x: RenameResult :: multiset(r)[x] == if x.status != StatusOk then multiset(results)[x] else 0
    ensures |r| <= |results|
  {
    if results == [] then []
    else
      var rest := Failures(results[1..]);
      assert results == [results[0]] + results[1..];
      assert multiset(results) == multiset{results[0]} + multiset(results[1..]);
      var r := if results[0].status != StatusOk then [results[0]] + rest else rest;
      FilteredMembers(r, results);
      r
  }

  /** The ids of the files whose rename failed. */
  function FailedIds(results: seq<RenameResult>): (ids: set<string>)
    ensures forall id :: id in ids <==> exists x :: x in results && x.status != StatusOk && x.fileId == id
  {
    set x | x in results && x.status != StatusOk :: x.fileId
  }

  /** The files whose id is not among the failed ones, in their original order. */
  function KeepSucceeded(files: seq<DriveFile>, failed: set<string>): (r: seq<DriveFile>)
    ensures forall f :: f in r <==> f in files && f.id !in failed
    ensures forall f: DriveFile :: f.id !in failed ==> multiset(r)[f] == multiset(files)[f]
    ensures forall f: DriveFile :: f.id in failed ==> multiset(r)[f] == 0
  {
    if files == [] then []
    else
      var rest := KeepSucceeded(files[1..], failed);
      assert files == [files[0]] + files[1..];
      if files[0].id in failed then rest else [files[0]] + rest
  }

  /** `a` is `b` with some elements left out, the rest in the same order. */
  predicate IsSubsequence<T(==)>(a: seq<T>, b: seq<T>)
    decreases |b|
  {
    a == [] || (b != [] && ((a[0] == b[0] && IsSubsequence(a[1..], b[1..])) || IsSubsequence(a, b[1..])))
  }

  /** The survivors keep the order the files had in the batch. */
  lemma {:induction false} KeepSucceededKeepsOrder(files: seq<DriveFile>, failed: set<string>)
    ensures IsSubsequence(KeepSucceeded(files, failed), files)
    decreases |files|
  {
    if files != [] {
      KeepSucceededKeepsOrder(files[1..], failed);
      var rest := KeepSucceeded(files[1..], failed);
      if files[0].id !in failed {
        assert ([files[0]] + rest)[1..] == rest;
      } else if rest != [] {
        assert IsSubsequence(rest, files[1..]);
      }
    }
  }

  /** The failed entries keep the order they have in the response. */
  lemma {:induction false} FailuresKeepOrder(results: seq<RenameResult>)
    ensures IsSubsequence(Failures(results), results)
    decreases |results|
  {
    if results != [] {
      FailuresKeepOrder(results[1..]);
      var rest := Failures(results[1..]);
      if results[0].status != StatusOk {
        assert ([results[0]] + rest)[1..] == rest;
      } else if rest != [] {
        assert IsSubsequence(rest, results[1..]);
      }
    }
  }

  /** Every file of the batch, renamed. */
  function RenamedBatch(files: seq<DriveFile>, instanceSlug: string, typeSlugs: seq<string>): (r: seq<DriveFile>)
    ensures |r| == |files|
    ensures forall k :: 0 <= k < |files| ==>
              r[k].title == r[k].name == AddFileSuffix(OriginalName(files[k]), instanceSlug, typeSlugs)
    ensures forall k :: 0 <= k < |files| ==>
              && r[k].id == files[k].id
              && r[k].originalFilename == files[k].originalFilename
              && r[k].parentIds == files[k].parentIds
  {
    seq(|files|, k requires 0 <= k < |files| => Suffixed(files[k], instanceSlug, typeSlugs))
  }

  /** One error entry per failed response entry, carrying the file's original name. */
  function RenameErrors(failures: seq<RenameResult>, names: map<string, string>): (r: seq<RenameError>)
    ensures |r| == |failures|
    ensures forall k :: 0 <= k < |r| ==>
              r[k].fileName == if failures[k].fileId in names then Some(names[failures[k].fileId]) else None
  {
    seq(|failures|, k requires 0 <= k < |failures| =>
      var id := failures[k].fileId;
      RenameError(if id in names then Some(names[id]) else None))
  }

  /** A survivor is the renamed form of a file whose id did not fail. */
  lemma SurvivorIsRenamed(files: seq<DriveFile>, instanceSlug: string, typeSlugs: seq<string>, failed: set<string>, f: DriveFile)
    requires f in KeepSucceeded(RenamedBatch(files, instanceSlug, typeSlugs), failed)
    ensures exists k :: 0 <= k < |files| && files[k].id !in failed && f == Suffixed(files[k], instanceSlug, typeSlugs)
  {
    var renamed := RenamedBatch(files, instanceSlug, typeSlugs);
    var k :| 0 <= k < |renamed| && renamed[k] == f;
    assert files[k].id == f.id;
  }

  /** The renamed form of a file whose id did not fail survives. */
  lemma RenamedSurvives(files: seq<DriveFile>, instanceSlug: string, typeSlugs: seq<string>, failed: set<string>, k: int)
    requires 0 <= k < |files| && files[k].id !in failed
    ensures Suffixed(files[k], instanceSlug, typeSlugs) in KeepSucceeded(RenamedBatch(files, instanceSlug, typeSlugs), failed)
  {
    var renamed := RenamedBatch(files, instanceSlug, typeSlugs);
    assert renamed[k] in renamed;
  }

  /** The renamed survivors are the renamed files whose id did not fail. */
  lemma SurvivorsOfBatch(files: seq<DriveFile>, instanceSlug: string, typeSlugs: seq<string>, failed: set<string>)
    ensures var survivors := KeepSucceeded(RenamedBatch(files, instanceSlug, typeSlugs), failed);
            && (|survivors| > 0 <==> exists k :: 0 <= k < |files| && files[k].id !in failed)
            && forall f :: f in survivors <==>
                 exists k :: 0 <= k < |files| && files[k].id !in failed && f == Suffixed(files[k], instanceSlug, typeSlugs)
  {
    var survivors := KeepSucceeded(RenamedBatch(files, instanceSlug, typeSlugs), failed);
    forall f | f in survivors
      ensures exists k :: 0 <= k < |files| && files[k].id !in failed && f == Suffixed(files[k], instanceSlug, typeSlugs)
    {
      SurvivorIsRenamed(files, instanceSlug, typeSlugs, failed, f);
    }
    forall k | 0 <= k < |files| && files[k].id !in failed
      ensures Suffixed(files[k], instanceSlug, typeSlugs) in survivors
    {
      RenamedSurvives(files, instanceSlug, typeSlugs, failed, k);
    }
    if |survivors| > 0 {
      assert survivors[0] in survivors;
    }
  }

  /** `addFilesSuffixes` after the batch response: every file is renamed;
      files whose id has a non-200 entry are removed and each such entry
      becomes one error entry with the original name; the result resolves
      with the survivors when there is at least one and rejects otherwise. */
  function AddFilesSuffixes(
    files: seq<DriveFile>, instanceSlug: string, typeSlugs: seq<string>, results: seq<RenameResult>)
    : (r: RenameOutcome)
    ensures r.Resolved? <==> exists k :: 0 <= k < |files| && files[k].id !in FailedIds(results)
    ensures r.Rejected? ==> r.message == RenameFailedMessage
    ensures r.Resolved? ==> r.errors == RenameErrors(Failures(results), OriginalNames(files))
    ensures r.Resolved? ==> r.files == KeepSucceeded(RenamedBatch(files, instanceSlug, typeSlugs), FailedIds(results))
    ensures r.Resolved? ==> forall f :: f in r.files <==>
              exists k :: 0 <= k < |files| && files[k].id !in FailedIds(results)
                          && f == Suffixed(files[k], instanceSlug, typeSlugs)
  {
    var survivors := KeepSucceeded(RenamedBatch(files, instanceSlug, typeSlugs), FailedIds(results));
    SurvivorsOfBatch(files, instanceSlug, typeSlugs, FailedIds(results));
    if |survivors| > 0 then Resolved(survivors, RenameErrors(Failures(results), OriginalNames(files)))
    else Rejected(RenameFailedMessage)
  }

  /** Whether a file has to be copied into the parent folder, or passes through. */
  datatype CopyStep = CopyToParent(file: DriveFile) | PassThrough(file: DriveFile)

  /** `copyFilesToParent`: one step per file, in order; a file is copied
      exactly when the parent folder is not among its parents. */
  function CopyFilesToParent(parentId: string, files: seq<DriveFile>): (r: seq<CopyStep>)
    ensures |r| == |files|
    ensures forall k :: 0 <= k < |r| ==> r[k].file == files[k]
    ensures forall k :: 0 <= k < |r| ==> (r[k].CopyToParent? <==> parentId !in files[k].parentIds)
  {
    seq(|files|, k requires 0 <= k < |files| =>
      if parentId in files[k].parentIds then PassThrough(files[k]) else CopyToParent(files[k]))
  }

  /** The files once the copies have been made: a copied file is replaced by its copy. */
  function Settle(steps: seq<CopyStep>, copies: seq<DriveFile>): (r: seq<DriveFile>)
    requires |copies| == |steps|
    ensures |r| == |steps|
  {
    seq(|steps|, k requires 0 <= k < |steps| =>
      if steps[k].CopyToParent? then copies[k] else steps[k].file)
  }

  /** Once every copy lives in the parent folder, running the decision again
      copies nothing: all files are already in place. */
  lemma CopyDecisionSettles(parentId: string, files: seq<DriveFile>, copies: seq<DriveFile>)
    requires |copies| == |files|
    requires forall k :: 0 <= k < |files| && parentId !in files[k].parentIds ==> parentId in copies[k].parentIds
    ensures forall step :: step in CopyFilesToParent(parentId, Settle(CopyFilesToParent(parentId, files), copies)) ==>
              step.PassThrough?
  {
  }
}

=== FILE: file_names.dfy ===
/**
 * File-name suffixing of the Drive picker launcher: `removeOldSuffix` and
 * `addFileSuffix`. An attached file `report.pdf` of an assessment with slug
 * `ASMT-1` and assessment-type object slugs `CTRL-2`, `CTRL-3` becomes
 * `report_ggrc_asmt-1_ctrl-2_ctrl-3.pdf`; an older `_ggrc_…` suffix is
 * replaced rather than kept.
 */
module FileNames {
  import opened Outcomes
  import opened Text
  import opened Slug

  /** The separator that starts a suffix written by this component. */
  const Marker: string := "_ggrc_"

  /** `pat` occurs in `s` starting at index `i`. */
  predicate OccursAt(s: string, pat: string, i: int) {
    0 <= i && i + |pat| <= |s| && s[i..i + |pat|] == pat
  }

  /** `String.prototype.lastIndexOf`: the greatest index where `pat` occurs, or -1. */
  function LastIndexOf(s: string, pat: string): (r: int)
    ensures r == -1 || OccursAt(s, pat, r)
    ensures forall j :: r < j ==> !OccursAt(s, pat, j)
  {
    SearchDown(s, pat, |s|)
  }

  /** The greatest index `<= i` where `pat` occurs, or -1. */
  function SearchDown(s: string, pat: string, i: int): (r: int)
    requires i <= |s|
    ensures r == -1 || (0 <= r <= i && OccursAt(s, pat, r))
    ensures forall j :: r < j <= i ==> !OccursAt(s, pat, j)
    decreases i + 1
  {
    if i < 0 then -1
    else if OccursAt(s, pat, i) then i
    else SearchDown(s, pat, i - 1)
  }

  /** `removeOldSuffix`: cut the name at its last `_ggrc_`, unless that
      occurrence is missing or at the very start. */
  function RemoveOldSuffix(fileName: string): (r: string)
    ensures r <= fileName
    ensures r != fileName <==>
              exists i :: 0 < i && OccursAt(fileName, Marker, i)
    ensures r != fileName ==>
              |r| > 0 && OccursAt(fileName, Marker, |r|)
              && forall j :: |r| < j ==> !OccursAt(fileName, Marker, j)
  {
    var delPos := LastIndexOf(fileName, Marker);
    if delPos > 0 then fileName[..delPos] else fileName
  }

  /** The pattern `/^(.*)\.(\w+)$/` matches `s` with its dot at index `i`:
      the extension after it is a non-empty run of word characters and the
      name before it has no line terminator. */
  predicate ExtensionDotAt(s: string, i: int) {
    && 0 <= i < |s| - 1
    && s[i] == '.'
    && AllWordChars(s[i + 1..])
    && NoLineTerminator(s[..i])
  }

  /** The dot of a match is the last dot of the name: the extension contains none. */
  lemma ExtensionDotIsLastDot(s: string, i: int)
    requires ExtensionDotAt(s, i)
    ensures LastIndexOf(s, ".") == i
  {
    assert OccursAt(s, ".", i);
    forall j | i < j
      ensures !OccursAt(s, ".", j)
    {
      if j < |s| {
        assert s[j] == s[i + 1..][j - i - 1];
      }
    }
  }

  /** The pattern matches exactly when it matches at the last dot. */
  lemma LastDotDecides(s: string)
    ensures (exists i :: ExtensionDotAt(s, i)) <==>
            LastIndexOf(s, ".") >= 0 && ExtensionDotAt(s, LastIndexOf(s, "."))
  {
    forall i | ExtensionDotAt(s, i)
      ensures LastIndexOf(s, ".") == i
    {
      ExtensionDotIsLastDot(s, i);
    }
  }

  /** The dot of a match is unique. */
  lemma ExtensionDotUnique(s: string, i: int, j: int)
    requires ExtensionDotAt(s, i) && ExtensionDotAt(s, j)
    ensures i == j
  {
    ExtensionDotIsLastDot(s, i);
    ExtensionDotIsLastDot(s, j);
  }

  /** The split at a matching dot is the split `SplitExtension` reports. */
  lemma SplitExtensionAt(s: string, i: int)
    requires ExtensionDotAt(s, i)
    ensures SplitExtension(s) == Some((s[..i], s[i + 1..]))
  {
    var j :| ExtensionDotAt(s, j) && SplitExtension(s).value == (s[..j], s[j + 1..]);
    ExtensionDotUnique(s, i, j);
  }

  /** `RemoveOldSuffix` cuts at the last occurrence, when that is past index 0. */
  lemma RemoveOldSuffixAt(s: string, i: int)
    requires OccursAt(s, Marker, i)
    requires forall j :: i < j ==> !OccursAt(s, Marker, j)
    ensures RemoveOldSuffix(s) == if i > 0 then s[..i] else s
  {
  }

  /** The match of `/^(.*)\.(\w+)$/`: the name and the extension, when the
      whole file name matches. */
  function SplitExtension(fileName: string): (r: Option<(string, string)>)
    ensures r.None? <==> forall i :: !ExtensionDotAt(fileName, i)
    ensures r.Some? ==>
              exists i :: ExtensionDotAt(fileName, i) && r.value == (fileName[..i], fileName[i + 1..])
  {
    var d := LastIndexOf(fileName, ".");
    LastDotDecides(fileName);
    if d >= 0 && ExtensionDotAt(fileName, d) then
      Some((fileName[..d], fileName[d + 1..]))
    else
      None
  }

  /** The parts joined by `_` after the name: `ggrc`, the instance slug and
      the slugs of the assessment-type objects, each sanitised. */
  function SuffixParts(instanceSlug: string, typeSlugs: seq<string>): (r: seq<string>)
    ensures |r| == |typeSlugs| + 2 && r[0] == "ggrc" && r[1] == Sanitize(instanceSlug)
    ensures forall k :: 0 <= k < |typeSlugs| ==> r[k + 2] == Sanitize(typeSlugs[k])
  {
    var sanitized := seq(|typeSlugs|, k requires 0 <= k < |typeSlugs| => Sanitize(typeSlugs[k]));
    var parts := ["ggrc", Sanitize(instanceSlug)] + sanitized;
    assert forall k :: 0 <= k < |sanitized| ==> parts[k + 2] == sanitized[k];
    parts
  }

  /** What `addFileSuffix` writes between the name and the extension; it
      starts with `_ggrc_`. */
  function NewSuffix(instanceSlug: string, typeSlugs: seq<string>): (r: string)
    ensures OccursAt(r, Marker, 0)
  {
    var parts := SuffixParts(instanceSlug, typeSlugs);
    assert Join(parts, "_") == "ggrc" + "_" + Join(parts[1..], "_");
    assert "_" + Join(parts, "_") == Marker + Join(parts[1..], "_");
    "_" + Join(parts, "_")
  }

  /** `addFileSuffix`: a matching file name becomes the stripped name, the new
      suffix and the extension; any other name is returned unchanged. */
  function AddFileSuffix(fileName: string, instanceSlug: string, typeSlugs: seq<string>): (r: string)
    ensures SplitExtension(fileName).None? ==> r == fileName
    ensures SplitExtension(fileName).Some? ==>
              var (name, ext) := SplitExtension(fileName).value;
              r == RemoveOldSuffix(name) + NewSuffix(instanceSlug, typeSlugs) + "." + ext
  {
    match SplitExtension(fileName)
    case None => fileName
    case Some((name, ext)) => RemoveOldSuffix(name) + NewSuffix(instanceSlug, typeSlugs) + "." + ext
  }

  /** `ggrc` is made of word characters. */
  lemma GgrcChars()
    ensures SlugChars("ggrc")
  {
    var g := "ggrc";
    assert IsWordChar(g[0]) && IsWordChar(g[1]) && IsWordChar(g[2]) && IsWordChar(g[3]);
  }

  /** Every part of the suffix is a word character or `-`. */
  lemma SuffixPartsChars(instanceSlug: string, typeSlugs: seq<string>)
    ensures var parts := SuffixParts(instanceSlug, typeSlugs);
            forall k :: 0 <= k < |parts| ==> SlugChars(parts[k])
  {
    var parts := SuffixParts(instanceSlug, typeSlugs);
    forall k | 0 <= k < |parts|
      ensures SlugChars(parts[k])
    {
      if k == 0 {
        assert parts[0] == "ggrc";
        GgrcChars();
      } else if k == 1 {
        assert parts[1] == Sanitize(instanceSlug);
        SanitizeIsSlug(instanceSlug);
      } else {
        assert parts[k] == Sanitize(typeSlugs[k - 2]);
        SanitizeIsSlug(typeSlugs[k - 2]);
      }
    }
  }

  /** The new suffix holds only word characters, `_` and `-`: no dot and no
      line terminator. */
  lemma NewSuffixChars(instanceSlug: string, typeSlugs: seq<string>)
    ensures SlugChars(NewSuffix(instanceSlug, typeSlugs))
  {
    var parts := SuffixParts(instanceSlug, typeSlugs);
    SuffixPartsChars(instanceSlug, typeSlugs);
    assert forall k, i :: 0 <= k < |parts| && 0 <= i < |parts[k]| ==> IsWordChar(parts[k][i]) || parts[k][i] == '-';
    JoinChars(parts, "_", c => IsWordChar(c) || c == '-');
    var j := Join(parts, "_");
    assert forall i :: 0 < i < |"_" + j| ==> ("_" + j)[i] == j[i - 1];
  }

  /** The last `_ggrc_` of a string that starts with one. */
  function LastMarker(suffix: string): (p: nat)
    requires OccursAt(suffix, Marker, 0)
    ensures OccursAt(suffix, Marker, p)
    ensures forall j :: p < j ==> !OccursAt(suffix, Marker, j)
  {
    LastIndexOf(suffix, Marker)
  }

  /** What stripping leaves of `x + suffix`: `x` and the part of the suffix
      before its last marker, or the whole suffix when that marker is at
      the very start. */
  function Stripped(x: string, suffix: string): string
    requires OccursAt(suffix, Marker, 0)
  {
    if |x| + LastMarker(suffix) > 0 then x + suffix[..LastMarker(suffix)] else suffix
  }

  /** Stripping a suffixed name: the cut falls on the last `_ggrc_` of the
      suffix, so `x + suffix` loses only what follows that marker; with an
      empty `x` and a single marker at the front nothing is cut at all. */
  lemma StripSuffixed(x: string, suffix: string)
    requires OccursAt(suffix, Marker, 0)
    ensures RemoveOldSuffix(x + suffix) == Stripped(x, suffix)
  {
    var s := x + suffix;
    var p := LastMarker(suffix);
    assert s[|x| + p..|x| + p + |Marker|] == suffix[p..p + |Marker|];
    assert OccursAt(s, Marker, |x| + p);
    forall j | |x| + p < j
      ensures !OccursAt(s, Marker, j)
    {
      if OccursAt(s, Marker, j) {
        assert s[j..j + |Marker|] == suffix[j - |x|..j - |x| + |Marker|];
        assert OccursAt(suffix, Marker, j - |x|);
      }
    }
    RemoveOldSuffixAt(s, |x| + p);
    assert s[..|x| + p] == x + suffix[..p];
  }

  /** Stripping undoes suffixing: cutting `x + suffix` at its last `_ggrc_`
      gives back `x`, for a non-empty `x` and a suffix whose only `_ggrc_` is
      the one it starts with. */
  lemma RemoveOldSuffixOfSuffixed(x: string, suffix: string)
    requires x != []
    requires OccursAt(suffix, Marker, 0)
    requires forall j :: 0 < j ==> !OccursAt(suffix, Marker, j)
    ensures RemoveOldSuffix(x + suffix) == x
  {
    StripSuffixed(x, suffix);
    assert LastMarker(suffix) == 0;
  }

  /** `addFileSuffix` on a name whose pattern dot is at `i`. */
  lemma AddFileSuffixAt(s: string, i: int, instanceSlug: string, typeSlugs: seq<string>)
    requires ExtensionDotAt(s, i)
    ensures AddFileSuffix(s, instanceSlug, typeSlugs)
            == RemoveOldSuffix(s[..i]) + NewSuffix(instanceSlug, typeSlugs) + "." + s[i + 1..]
  {
    SplitExtensionAt(s, i);
  }

  /** A suffixed name still matches the pattern, with its dot right after the suffix. */
  lemma SuffixedMatches(base: string, suffix: string, ext: string)
    requires NoLineTerminator(base) && SlugChars(suffix)
    requires ext != [] && AllWordChars(ext)
    ensures ExtensionDotAt(base + suffix + "." + ext, |base + suffix|)
  {
    var once := base + suffix + "." + ext;
    var d := |base + suffix|;
    assert once[..d] == base + suffix;
    assert once[d + 1..] == ext;
    forall k | 0 <= k < d
      ensures !IsLineTerminator(once[k])
    {
      if k >= |base| {
        assert once[k] == suffix[k - |base|];
      }
    }
  }

  /** A suffixed file name still matches the pattern: its extension is the
      original one and its name is the stripped name with the new suffix. */
  lemma SuffixedStillMatches(fileName: string, instanceSlug: string, typeSlugs: seq<string>)
    requires SplitExtension(fileName).Some?
    ensures var (name, ext) := SplitExtension(fileName).value;
            SplitExtension(AddFileSuffix(fileName, instanceSlug, typeSlugs))
            == Some((RemoveOldSuffix(name) + NewSuffix(instanceSlug, typeSlugs), ext))
  {
    var (name, ext) := SplitExtension(fileName).value;
    var i :| ExtensionDotAt(fileName, i) && (name, ext) == (fileName[..i], fileName[i + 1..]);
    var base := RemoveOldSuffix(name);
    var suffix := NewSuffix(instanceSlug, typeSlugs);
    assert NoLineTerminator(base) by {
      assert forall k :: 0 <= k < |base| ==> base[k] == name[k] == fileName[k];
    }
    NewSuffixChars(instanceSlug, typeSlugs);
    SuffixedMatches(base, suffix, ext);
    var once := base + suffix + "." + ext;
    SplitExtensionAt(once, |base + suffix|);
    assert once[..|base + suffix|] == base + suffix;
    assert once[|base + suffix| + 1..] == ext;
  }

  /** Suffixing a name that carries the new suffix: the old suffix is cut
      at the new suffix's last `_ggrc_`, and the new suffix is written again. */
  lemma SecondPass(base: string, ext: string, instanceSlug: string, typeSlugs: seq<string>)
    requires NoLineTerminator(base)
    requires ext != [] && AllWordChars(ext)
    ensures var suffix := NewSuffix(instanceSlug, typeSlugs);
            AddFileSuffix(base + suffix + "." + ext, instanceSlug, typeSlugs)
            == Stripped(base, suffix) + suffix + "." + ext
  {
    var suffix := NewSuffix(instanceSlug, typeSlugs);
    NewSuffixChars(instanceSlug, typeSlugs);
    SuffixedMatches(base, suffix, ext);
    var once := base + suffix + "." + ext;
    var d := |base + suffix|;
    AddFileSuffixAt(once, d, instanceSlug, typeSlugs);
    assert once[..d] == base + suffix;
    assert once[d + 1..] == ext;
    StripSuffixed(base, suffix);
  }

  /** Suffixing twice: the first pass writes the stripped name, the new
      suffix and the extension; the second cuts at the new suffix's last
      `_ggrc_`, so whatever of the suffix precedes that marker stays behind
      (nothing, when the marker it starts with is its only one). */
  lemma Resuffix(fileName: string, instanceSlug: string, typeSlugs: seq<string>)
    requires SplitExtension(fileName).Some?
    ensures var (name, ext) := SplitExtension(fileName).value;
            var suffix := NewSuffix(instanceSlug, typeSlugs);
            && AddFileSuffix(fileName, instanceSlug, typeSlugs) == RemoveOldSuffix(name) + suffix + "." + ext
            && AddFileSuffix(AddFileSuffix(fileName, instanceSlug, typeSlugs), instanceSlug, typeSlugs)
               == Stripped(RemoveOldSuffix(name), suffix) + suffix + "." + ext
  {
    var (name, ext) := SplitExtension(fileName).value;
    var i :| ExtensionDotAt(fileName, i) && (name, ext) == (fileName[..i], fileName[i + 1..]);
    var base := RemoveOldSuffix(name);
    assert NoLineTerminator(base) by {
      assert forall k :: 0 <= k < |base| ==> base[k] == name[k] == fileName[k];
    }
    SecondPass(base, ext, instanceSlug, typeSlugs);
  }

  /** Re-suffixing replaces the old suffix instead of stacking a second one,
      as long as the name before the first suffix is non-empty and the new
      suffix holds no `_ggrc_` other than its leading one. */
  lemma ResuffixReplaces(fileName: string, instanceSlug: string, typeSlugs: seq<string>)
    requires SplitExtension(fileName).Some? && SplitExtension(fileName).value.0 != []
    requires forall j :: 0 < j ==> !OccursAt(NewSuffix(instanceSlug, typeSlugs), Marker, j)
    ensures AddFileSuffix(AddFileSuffix(fileName, instanceSlug, typeSlugs), instanceSlug, typeSlugs)
            == AddFileSuffix(fileName, instanceSlug, typeSlugs)
  {
    var (name, ext) := SplitExtension(fileName).value;
    var base := RemoveOldSuffix(name);
    var suffix := NewSuffix(instanceSlug, typeSlugs);
    Resuffix(fileName, instanceSlug, typeSlugs);
    assert LastMarker(suffix) == 0;
    assert Stripped(base, suffix) == base;
    assert base != [] by {
      if base == name {
        assert name != [];
      }
    }
  }

  /** Without a name in front of the extension the suffix stacks: `.ext`
      becomes `<suffix>.ext` and then `<suffix><suffix>.ext`, because a
      `_ggrc_` at index 0 is never removed. */
  lemma EmptyNameStacksSuffix(ext: string, instanceSlug: string, typeSlugs: seq<string>)
    requires ext != [] && AllWordChars(ext)
    requires forall j :: 0 < j ==> !OccursAt(NewSuffix(instanceSlug, typeSlugs), Marker, j)
    ensures var suffix := NewSuffix(instanceSlug, typeSlugs);
            && AddFileSuffix("." + ext, instanceSlug, typeSlugs) == suffix + "." + ext
            && AddFileSuffix(suffix + "." + ext, instanceSlug, typeSlugs) == suffix + suffix + "." + ext
  {
    var f := "." + ext;
    var suffix := NewSuffix(instanceSlug, typeSlugs);
    assert ExtensionDotAt(f, 0) by {
      assert f[1..] == ext;
    }
    AddFileSuffixAt(f, 0, instanceSlug, typeSlugs);
    assert f[..0] == "" && f[1..] == ext;
    assert RemoveOldSuffix("") == "";
    assert "" + suffix == suffix;
    SecondPass("", ext, instanceSlug, typeSlugs);
    assert LastMarker(suffix) == 0;
    assert Stripped("", suffix) == suffix;
  }

  /** A word of lower-case letters is its own sanitised form. */
  lemma LowerWordSanitized(w: string)
    requires forall i :: 0 <= i < |w| ==> IsAsciiLower(w[i])
    ensures Sanitize(w) == w
  {
    assert IsSlug(w);
    SanitizeFixedPoint(w);
  }

  /** A second `_ggrc_` inside the new suffix makes every re-suffixing keep
      part of the old suffix: the name grows with each pass. */
  lemma InnerMarkerStacks(fileName: string, instanceSlug: string, typeSlugs: seq<string>)
    requires SplitExtension(fileName).Some?
    requires exists j :: 0 < j && OccursAt(NewSuffix(instanceSlug, typeSlugs), Marker, j)
    ensures var once := AddFileSuffix(fileName, instanceSlug, typeSlugs);
            |AddFileSuffix(once, instanceSlug, typeSlugs)| > |once|
  {
    var suffix := NewSuffix(instanceSlug, typeSlugs);
    var j :| 0 < j && OccursAt(suffix, Marker, j);
    assert LastMarker(suffix) >= j;
    Resuffix(fileName, instanceSlug, typeSlugs);
  }

  /** The marker between two strings occurs right after the first. */
  lemma MarkerBetween(a: string, b: string)
    ensures OccursAt(a + Marker + b, Marker, |a|)
  {
    assert (a + Marker + b)[|a|..|a| + |Marker|] == Marker;
  }

  /** The marker is `ggrc` between two `_`. */
  lemma MarkerAroundGgrc()
    ensures Marker == "_" + "ggrc" + "_"
  {
    var m := "_" + "ggrc" + "_";
    assert |m| == 6 && m[0] == '_' && m[1] == 'g' && m[2] == 'g' && m[3] == 'r' && m[4] == 'c' && m[5] == '_';
  }

  /** `ggrc` as a type slug survives sanitising. */
  lemma GgrcSanitized()
    ensures Sanitize("ggrc") == "ggrc"
  {
    var g := "ggrc";
    assert IsAsciiLower(g[0]) && IsAsciiLower(g[1]) && IsAsciiLower(g[2]) && IsAsciiLower(g[3]);
    LowerWordSanitized(g);
  }

  /** Four parts joined by `_` after a leading `_`, grouped around the
      third part. */
  lemma JoinFour(a: string, b: string, c: string, d: string)
    ensures "_" + Join([a, b, c, d], "_") == ("_" + a + "_" + b) + ("_" + c + "_") + d
  {
    assert [a, b, c, d][1..] == [b, c, d];
    assert [b, c, d][1..] == [c, d];
    assert [c, d][1..] == [d];
    assert Join([d], "_") == d;
    assert Join([c, d], "_") == c + "_" + d;
    assert Join([b, c, d], "_") == b + "_" + (c + "_" + d);
    assert Join([a, b, c, d], "_") == a + "_" + (b + "_" + (c + "_" + d));
  }

  /** A type slug `ggrc` followed by another one puts a second `_ggrc_`
      inside the new suffix, right after the instance slug. */
  lemma GgrcTypeSlugInnerMarker(instanceSlug: string, y: string)
    ensures OccursAt(NewSuffix(instanceSlug, ["ggrc", y]), Marker, |Marker| + |Sanitize(instanceSlug)|)
  {
    var g, sx, sy := "ggrc", Sanitize(instanceSlug), Sanitize(y);
    var parts := SuffixParts(instanceSlug, [g, y]);
    assert parts == [g, sx, g, sy] by {
      GgrcSanitized();
      assert [g, y][0] == g && [g, y][1] == y;
    }
    var head := "_" + g + "_" + sx;
    assert NewSuffix(instanceSlug, [g, y]) == head + Marker + sy by {
      MarkerAroundGgrc();
      JoinFour(g, sx, g, sy);
    }
    MarkerBetween(head, sy);
  }

  /** Hence re-suffixing with type slugs `ggrc`, `y` makes the name grow,
      whatever the file name and the instance slug. */
  lemma GgrcTypeSlugStacks(fileName: string, instanceSlug: string, y: string)
    requires SplitExtension(fileName).Some?
    ensures var once := AddFileSuffix(fileName, instanceSlug, ["ggrc", y]);
            |AddFileSuffix(once, instanceSlug, ["ggrc", y])| > |once|
  {
    GgrcTypeSlugInnerMarker(instanceSlug, y);
    InnerMarkerStacks(fileName, instanceSlug, ["ggrc", y]);
  }
}

=== FILE: folders.dfy ===
/**
 * Parent-folder choice of the Drive picker launcher (`trigger_upload_parent`):
 * the recursive "own folder" search over a mapping tree, the choice of the
 * folder to upload into, and the reaction to a failed upload chain.
 */
module Folders {
  import opened Outcomes

  /** The identity of an application object (JavaScript object identity). */
  type InstanceId = nat

  /** A node of the mapping tree of an `extended_folders` binding: the
      binding's instance, whether the node's `instance` is the literal `true`,
      and the sub-mappings (a missing list is the empty list). */
  datatype Mapping = Mapping(bindingInstance: InstanceId, instanceIsTrue: bool, mappings: seq<Mapping>)

  /** A Drive folder; the empty `selfLink` stands for a folder the Drive API cannot reach. */
  datatype Folder = Folder(id: string, selfLink: string)

  /** One entry of the refreshed binding list: a folder and the mappings that led to it. */
  datatype Binding = Binding(instance: Folder, mappings: seq<Mapping>)

  /** `isOwnFolder(mapping, instance)`. */
  function IsOwnFolder(m: Mapping, inst: InstanceId): (r: bool)
    ensures r ==> m.bindingInstance == inst
    ensures m.bindingInstance == inst && (|m.mappings| < 1 || m.instanceIsTrue) ==> r
    decreases m
  {
    if m.bindingInstance != inst then false
    else if |m.mappings| < 1 || m.instanceIsTrue then true
    else exists k :: 0 <= k < |m.mappings| && IsOwnFolder(m.mappings[k], inst)
  }

  /** A witness path for the search: every node on it is bound to `inst`, and
      it ends in a node without sub-mappings or whose instance is `true`. */
  predicate OwnPath(m: Mapping, inst: InstanceId, path: seq<nat>)
    decreases |path|
  {
    && m.bindingInstance == inst
    && if path == [] then |m.mappings| < 1 || m.instanceIsTrue
       else path[0] < |m.mappings| && OwnPath(m.mappings[path[0]], inst, path[1..])
  }

  lemma {:induction false} OwnFolderHasPath(m: Mapping, inst: InstanceId)
    requires IsOwnFolder(m, inst)
    ensures exists path :: OwnPath(m, inst, path)
    decreases m
  {
    if |m.mappings| < 1 || m.instanceIsTrue {
      assert OwnPath(m, inst, []);
    } else {
      var k :| 0 <= k < |m.mappings| && IsOwnFolder(m.mappings[k], inst);
      OwnFolderHasPath(m.mappings[k], inst);
      var p :| OwnPath(m.mappings[k], inst, p);
      assert ([k as nat] + p)[1..] == p;
      assert OwnPath(m, inst, [k as nat] + p);
    }
  }

  lemma {:induction false} PathMakesOwnFolder(m: Mapping, inst: InstanceId, path: seq<nat>)
    requires OwnPath(m, inst, path)
    ensures IsOwnFolder(m, inst)
    decreases |path|
  {
    if path != [] && !(|m.mappings| < 1 || m.instanceIsTrue) {
      PathMakesOwnFolder(m.mappings[path[0]], inst, path[1..]);
    }
  }

  /** The recursive search succeeds exactly when there is a path from the
      mapping down to a leaf (or a `true` instance) along which every node is
      bound to the instance. */
  lemma IsOwnFolderIffPath(m: Mapping, inst: InstanceId)
    ensures IsOwnFolder(m, inst) <==> exists path :: OwnPath(m, inst, path)
  {
    if IsOwnFolder(m, inst) {
      OwnFolderHasPath(m, inst);
    }
    if exists path :: OwnPath(m, inst, path) {
      var path :| OwnPath(m, inst, path);
      PathMakesOwnFolder(m, inst, path);
    }
  }

  /** A mapping bound to another instance is never the instance's own folder. */
  lemma OtherInstanceNeverOwn(m: Mapping, inst: InstanceId)
    requires m.bindingInstance != inst
    ensures !exists path :: OwnPath(m, inst, path)
  {
    IsOwnFolderIffPath(m, inst);
  }

  /** The reduction over a binding's mappings. */
  predicate HasOwnFolder(b: Binding, inst: InstanceId) {
    exists k :: 0 <= k < |b.mappings| && IsOwnFolder(b.mappings[k], inst)
  }

  /** The index of the first binding that has an own-folder mapping. */
  function FirstOwn(bindings: seq<Binding>, inst: InstanceId): (r: Option<nat>)
    ensures r.Some? ==> r.value < |bindings| && HasOwnFolder(bindings[r.value], inst)
    ensures r.Some? ==> forall k :: 0 <= k < r.value ==> !HasOwnFolder(bindings[k], inst)
    ensures r.None? <==> forall k :: 0 <= k < |bindings| ==> !HasOwnFolder(bindings[k], inst)
  {
    if bindings == [] then None
    else if HasOwnFolder(bindings[0], inst) then Some(0)
    else match FirstOwn(bindings[1..], inst)
      case None => assert forall k :: 1 <= k < |bindings| ==> bindings[k] == bindings[1..][k - 1]; None
      case Some(i) => assert forall k :: 1 <= k <= i + 1 ==> bindings[k] == bindings[1..][k - 1]; Some(i + 1)
  }

  const NoFolderWarning: string := "Can't upload: No GDrive folder found"

  /** What the `done` callback of the binding list does: warn and stop,
      upload into a folder, or throw a `TypeError` because the single
      binding it reads has no folder (`instance` is `undefined`), in which
      case nothing is uploaded and no warning is shown. */
  datatype ParentChoice = NoFolder(warning: string) | UploadInto(parent: Folder) | UndefinedFolder

  /** The folder the picked files go into: a warning and no upload when
      there is no binding or the first one's folder has no `selfLink`;
      otherwise the folder of the first binding with an own-folder mapping,
      falling back to the first binding's folder. */
  function ChooseParentFolder(bindings: seq<Binding>, inst: InstanceId): (r: ParentChoice)
    ensures r.NoFolder? <==> |bindings| < 1 || bindings[0].instance.selfLink == ""
    ensures r.NoFolder? ==> r.warning == NoFolderWarning
    ensures r.UploadInto? && (exists k :: 0 <= k < |bindings| && HasOwnFolder(bindings[k], inst)) ==>
              exists k :: 0 <= k < |bindings| && r.parent == bindings[k].instance
                && HasOwnFolder(bindings[k], inst)
                && forall j :: 0 <= j < k ==> !HasOwnFolder(bindings[j], inst)
    ensures r.UploadInto? && (forall k :: 0 <= k < |bindings| ==> !HasOwnFolder(bindings[k], inst)) ==>
              r.parent == bindings[0].instance
  {
    if |bindings| < 1 || bindings[0].instance.selfLink == "" then NoFolder(NoFolderWarning)
    else match FirstOwn(bindings, inst)
      case Some(k) => UploadInto(bindings[k].instance)
      case None => UploadInto(bindings[0].instance)
  }

  /** The upload goes into the first binding with an own-folder mapping,
      whatever comes before it, as long as the first binding's folder is
      reachable. */
  lemma {:induction false} ChoosesFirstOwn(bindings: seq<Binding>, inst: InstanceId, k: nat)
    requires k < |bindings| && bindings[0].instance.selfLink != ""
    requires HasOwnFolder(bindings[k], inst)
    requires forall j :: 0 <= j < k ==> !HasOwnFolder(bindings[j], inst)
    ensures ChooseParentFolder(bindings, inst) == UploadInto(bindings[k].instance)
  {
  }

  /** A first binding with no own folder and a second one bound to the
      instance: the upload goes into the second binding's folder. */
  lemma SecondBindingOwn(f0: Folder, f1: Folder, inst: InstanceId)
    requires f0.selfLink != ""
    ensures ChooseParentFolder([Binding(f0, []), Binding(f1, [Mapping(inst, true, [])])], inst) == UploadInto(f1)
  {
    var bindings := [Binding(f0, []), Binding(f1, [Mapping(inst, true, [])])];
    assert IsOwnFolder(bindings[1].mappings[0], inst);
    ChoosesFirstOwn(bindings, inst, 1);
  }

  /** An application object as the launcher sees it: its identity, the
      folder kept on it (`_transient.folder`), and its refreshed
      `extended_folders` bindings. */
  datatype Owner = Owner(id: InstanceId, transientFolder: Option<Folder>, extendedFolders: seq<Binding>)

  /** `folderInstance`: the launcher's `folder_instance` when it has one,
      else its `instance`. */
  function FolderOwner(instance: Owner, folderInstance: Option<Owner>): Owner
  {
    if folderInstance.Some? then folderInstance.value else instance
  }

  /** The binding list `trigger_upload_parent` waits for: a single binding
      whose folder may be missing, or a list of refreshed bindings. */
  datatype BindingList = Single(folder: Option<Folder>) | Extended(bindings: seq<Binding>)

  /** Which list is built is decided by the launcher's `instance` keeping a
      folder, but both lists are read from the folder instance. */
  function UploadBindings(instance: Owner, folderInstance: Option<Owner>): (r: BindingList)
    ensures r.Single? <==> instance.transientFolder.Some?
    ensures r.Single? ==> r.folder == FolderOwner(instance, folderInstance).transientFolder
    ensures r.Extended? ==> r.bindings == FolderOwner(instance, folderInstance).extendedFolders
  {
    var owner := FolderOwner(instance, folderInstance);
    if instance.transientFolder.Some? then Single(owner.transientFolder) else Extended(owner.extendedFolders)
  }

  /** The parent-folder choice of `trigger_upload_parent`; own folders are
      those of the launcher's `instance`. */
  function ParentFolder(instance: Owner, folderInstance: Option<Owner>): (r: ParentChoice)
    ensures r.UndefinedFolder? <==>
              instance.transientFolder.Some? && FolderOwner(instance, folderInstance).transientFolder.None?
    ensures instance.transientFolder.Some? && FolderOwner(instance, folderInstance).transientFolder.Some? ==>
              var f := FolderOwner(instance, folderInstance).transientFolder.value;
              r == if f.selfLink == "" then NoFolder(NoFolderWarning) else UploadInto(f)
    ensures instance.transientFolder.None? ==>
              r == ChooseParentFolder(FolderOwner(instance, folderInstance).extendedFolders, instance.id)
  {
    match UploadBindings(instance, folderInstance)
    case Single(None) => UndefinedFolder
    case Single(Some(f)) => ChooseParentFolder([Binding(f, [])], instance.id)
    case Extended(bindings) => ChooseParentFolder(bindings, instance.id)
  }

  /** Without a separate folder instance, a folder kept on the instance is
      the upload target whenever it is reachable, whatever its bindings. */
  lemma TransientFolderWins(instance: Owner)
    requires instance.transientFolder.Some?
    ensures var f := instance.transientFolder.value;
            ParentFolder(instance, None) == if f.selfLink == "" then NoFolder(NoFolderWarning) else UploadInto(f)
  {
  }

  /** With a separate folder instance, the instance's own kept folder only
      selects the single-binding list: the folder used is the folder
      instance's, and when it keeps none the callback throws. */
  lemma FolderInstanceDecides(instance: Owner, folderInstance: Owner)
    requires instance.transientFolder.Some?
    ensures folderInstance.transientFolder.None? ==> ParentFolder(instance, Some(folderInstance)).UndefinedFolder?
    ensures folderInstance.transientFolder.Some? && folderInstance.transientFolder.value.selfLink != "" ==>
              ParentFolder(instance, Some(folderInstance)) == UploadInto(folderInstance.transientFolder.value)
  {
  }

  /** An error a failed upload chain hands to its `fail` callback. */
  datatype UploadError = UploadError(code: Option<int>, message: string)

  /** The arguments of a `fail` callback, in order; `None` stands for an
      argument that is not an error (`undefined` or another falsy value). */
  type FailArguments = seq<Option<UploadError>>

  /** `_.last(arguments)`: the last argument, `undefined` when there is none. */
  function LastArgument(args: FailArguments): (r: Option<UploadError>)
    ensures args == [] ==> r.None?
    ensures args != [] ==> r == args[|args| - 1]
  {
    if args == [] then None else args[|args| - 1]
  }

  /** The first named parameter: the first argument, `undefined` when there is none. */
  function FirstArgument(args: FailArguments): (r: Option<UploadError>)
    ensures args == [] ==> r.None?
    ensures args != [] ==> r == args[0]
  {
    if args == [] then None else args[0]
  }

  /** What the launcher does on a failed upload chain. */
  datatype FailureReaction =
    | ForbiddenNotice   // notify the 403 message and still signal `modal:success`
    | ResetAndNotify(message: string)   // dispatch `resetItems` and notify the message
    | NoReaction

  /** Signalling success happens only for the forbidden case. */
  predicate SignalsSuccess(r: FailureReaction) { r.ForbiddenNotice? }

  predicate ResetsItems(r: FailureReaction) { r.ResetAndNotify? }

  const Forbidden: int := 403

  /** The failure branch of `trigger_upload_parent`, which reads the last
      argument: a 403 (no write access to the folder) notifies the user and
      still signals success; any other error resets the items; no error at
      all does nothing. */
  function OnParentUploadFailure(args: FailArguments): (r: FailureReaction)
    ensures SignalsSuccess(r) <==> args != [] && args[|args| - 1].Some? && args[|args| - 1].value.code == Some(Forbidden)
    ensures ResetsItems(r) <==> args != [] && args[|args| - 1].Some? && args[|args| - 1].value.code != Some(Forbidden)
    ensures ResetsItems(r) ==> r.message == args[|args| - 1].value.message
    ensures r.NoReaction? <==> args == [] || args[|args| - 1].None?
  {
    match LastArgument(args)
    case None => NoReaction
    case Some(e) => if e.code == Some(Forbidden) then ForbiddenNotice else ResetAndNotify(e.message)
  }

  /** The picker flow's failure reaction (`trigger_upload`), which reads the
      first argument: the items are always reset, and an error message is
      shown when there is an error. */
  datatype PickerFailureReaction = PickerFailureReaction(reset: bool, notice: Option<string>)

  function OnPickerUploadFailure(args: FailArguments): (r: PickerFailureReaction)
    ensures r.reset
    ensures r.notice.Some? <==> args != [] && args[0].Some?
    ensures r.notice.Some? ==> r.notice == Some(args[0].value.message)
  {
    var error := FirstArgument(args);
    PickerFailureReaction(true, if error.Some? then Some(error.value.message) else None)
  }

  /** On a rejection with a single argument, the two flows differ only on the
      forbidden error and on a missing one: every other error resets the
      items and shows its message in both. */
  lemma FailureFlowsAgree(args: FailArguments, e: UploadError)
    requires args == [Some(e)]
    requires e.code != Some(Forbidden)
    ensures ResetsItems(OnParentUploadFailure(args)) && OnPickerUploadFailure(args).reset
    ensures OnPickerUploadFailure(args).notice == Some(OnParentUploadFailure(args).message)
  {
  }

  /** With more than one argument the flows read different ones: errors
      `first` and `last` with different messages make the picker flow show
      the first message and the parent flow the last. */
  lemma FlowsReadDifferentArguments(args: FailArguments, first: UploadError, last: UploadError)
    requires |args| >= 2 && args[0] == Some(first) && args[|args| - 1] == Some(last)
    requires first.code != Some(Forbidden) && last.code != Some(Forbidden)
    requires first.message != last.message
    ensures OnPickerUploadFailure(args).notice == Some(first.message)
    ensures OnParentUploadFailure(args) == ResetAndNotify(last.message)
    ensures OnPickerUploadFailure(args).notice != Some(OnParentUploadFailure(args).message)
  {
  }
}

=== FILE: model_setup.dfy ===
/**
 * Type-definition time of the Cacheable model base (`setup`) and the
 * guards and payload handling of its collection finders: the six names,
 * the attribute-type map with the `created_at`/`updated_at` defaults, the
 * default `findAll` endpoint, the registry of custom-attributable types,
 * the refusal of `findAll`/`findPage` on the base type itself, and the
 * unwrapping of a collection payload.
 */
module ModelSetup {
  import opened Outcomes
  import opened Naming

  /** Attribute name → coercion type name. */
  type AttrTypes = map<string, string>

  const DateTime: string := "datetime"

  /** The coercions every model type gets unless it says otherwise. */
  const DefaultAttributes: AttrTypes := map["created_at" := DateTime, "updated_at" := DateTime]

  /** What a subclass declares. */
  datatype TypeConfig = TypeConfig(
    rootObject: string,
    rootCollection: string,
    names: NameOverrides,
    findAll: Option<string>,
    attributes: AttrTypes,
    isCustomAttributable: bool)

  /** A model type after setup. */
  datatype ModelType = ModelType(
    names: NameSet,
    rootCollection: string,
    findAll: string,
    attributes: AttrTypes,
    isCustomAttributable: bool)

  /** The defaults are merged in underneath the declared attributes: every
      declared entry is kept as it is, and a default is added only for a
      name the type does not declare. */
  function MergeDefaultAttributes(attrs: AttrTypes): (r: AttrTypes)
    ensures r.Keys == attrs.Keys + DefaultAttributes.Keys
    ensures forall a :: a in attrs ==> r[a] == attrs[a]
    ensures forall a :: a in DefaultAttributes && a !in attrs ==> r[a] == DateTime
  {
    DefaultAttributes + attrs
  }

  /** Setting a model type up twice adds nothing more. */
  lemma MergeIdempotent(attrs: AttrTypes)
    ensures MergeDefaultAttributes(MergeDefaultAttributes(attrs)) == MergeDefaultAttributes(attrs)
  {
  }

  /** A type that declares both timestamps keeps its own coercions for them. */
  lemma DeclaredTimestampsWin(attrs: AttrTypes)
    requires DefaultAttributes.Keys <= attrs.Keys
    ensures MergeDefaultAttributes(attrs) == attrs
  {
  }

  /** The `dummy_model` type declares one attribute and ends up with three. */
  lemma DummyModelAttributes()
    ensures MergeDefaultAttributes(map["dummy_attribute" := "dummy_convert"])
            == map["created_at" := "datetime", "updated_at" := "datetime", "dummy_attribute" := "dummy_convert"]
  {
  }

  const ApiPrefix: string := "GET /api/"

  /** The find-all endpoint: the declared one, else a GET on `/api/` followed
      by the collection name. */
  function FindAllEndpoint(rootCollection: string, declared: Option<string>): (r: string)
    ensures declared.Some? ==> r == declared.value
    ensures declared.None? ==> |r| == |ApiPrefix| + |rootCollection|
    ensures declared.None? ==> r[..|ApiPrefix|] == ApiPrefix && r[|ApiPrefix|..] == rootCollection
  {
    match declared
    case Some(e) => e
    case None => ApiPrefix + rootCollection
  }

  /** The collection a default endpoint addresses, when the endpoint has the default shape. */
  function EndpointCollection(endpoint: string): (r: Option<string>)
    ensures r.Some? <==> |endpoint| >= |ApiPrefix| && endpoint[..|ApiPrefix|] == ApiPrefix
    ensures r.Some? ==> ApiPrefix + r.value == endpoint
  {
    if |endpoint| >= |ApiPrefix| && endpoint[..|ApiPrefix|] == ApiPrefix then
      assert ApiPrefix + endpoint[|ApiPrefix|..] == endpoint;
      Some(endpoint[|ApiPrefix|..])
    else None
  }

  /** The default endpoint names its collection and nothing else. */
  lemma DefaultEndpointRoundTrip(rootCollection: string)
    ensures EndpointCollection(FindAllEndpoint(rootCollection, None)) == Some(rootCollection)
  {
  }

  /** A type declaring only `root_collection: 'foos'` finds all at `GET /api/foos`. */
  lemma FoosEndpoint()
    ensures FindAllEndpoint("foos", None) == "GET /api/foos"
  {
  }

  /** `setup`: names resolved, defaults merged, endpoint defaulted, flag kept. */
  function Setup(c: TypeConfig): (t: ModelType)
    ensures t.names == ResolveNames(c.rootObject, c.rootCollection, c.names)
    ensures t.attributes.Keys == c.attributes.Keys + DefaultAttributes.Keys
    ensures forall a :: a in c.attributes ==> t.attributes[a] == c.attributes[a]
    ensures c.findAll.Some? ==> t.findAll == c.findAll.value
    ensures c.findAll.None? ==> EndpointCollection(t.findAll) == Some(c.rootCollection)
    ensures t.isCustomAttributable == c.isCustomAttributable
  {
    DefaultEndpointRoundTrip(c.rootCollection);
    ModelType(
      ResolveNames(c.rootObject, c.rootCollection, c.names),
      c.rootCollection,
      FindAllEndpoint(c.rootCollection, c.findAll),
      MergeDefaultAttributes(c.attributes),
      c.isCustomAttributable)
  }

  /** The process-wide list of custom-attributable types after a type is set
      up: the type is added exactly when its flag is set, and nothing is removed. */
  function Register(registry: seq<ModelType>, t: ModelType): (r: seq<ModelType>)
    ensures registry <= r
    ensures t in r <==> t in registry || t.isCustomAttributable
    ensures forall u :: u in r ==> u in registry || u == t
  {
    if t.isCustomAttributable then registry + [t] else registry
  }

  /** The two collection finders of the base type. */
  datatype Finder = FindAll | FindPage

  /** Who a finder is called on: the base type itself or a set-up subclass. */
  datatype Receiver = BaseType | Subclass(t: ModelType)

  /** The message of the refusal, naming the finder. */
  function NoDefaultMessage(f: Finder): string
  {
    match f
    case FindAll => "No default findAll() exists for subclasses of Cacheable"
    case FindPage => "No default findPage() exists for subclasses of Cacheable"
  }

  /** The guard of a finder: on the base type it fails at once with a fixed
      message naming the finder; on a subclass it goes ahead with that
      subclass's configuration. */
  function CheckFinder(recv: Receiver, f: Finder): (r: Result<ModelType, string>)
    ensures r.Failure? <==> recv.BaseType?
    ensures r.Success? ==> r.value == recv.t
    ensures recv.BaseType? && f == FindAll ==>
              r.error == "No default findAll() exists for subclasses of Cacheable"
    ensures recv.BaseType? && f == FindPage ==>
              r.error == "No default findPage() exists for subclasses of Cacheable"
  {
    match recv
    case BaseType => Failure(NoDefaultMessage(f))
    case Subclass(t) => Success(t)
  }

  /** The two refusals are told apart by their message. */
  lemma FinderMessagesDiffer()
    ensures CheckFinder(BaseType, FindAll).error != CheckFinder(BaseType, FindPage).error
  {
    var a := CheckFinder(BaseType, FindAll).error;
    var b := CheckFinder(BaseType, FindPage).error;
    assert a[15] == 'A' && b[15] == 'P';
  }

  /** A JSON value as delivered by the REST backend. */
  datatype Json =
    | JNull
    | JBool(b: bool)
    | JNum(n: int)
    | JStr(s: string)
    | JArray(items: seq<Json>)
    | JObject(fields: map<string, Json>)

  function CollectionKey(plural: string): string
  {
    plural + "_collection"
  }

  /** `{<plural>_collection: {<plural>: [...]}}`. */
  predicate IsEnvelope(payload: Json, plural: string) {
    && payload.JObject?
    && CollectionKey(plural) in payload.fields
    && payload.fields[CollectionKey(plural)].JObject?
    && plural in payload.fields[CollectionKey(plural)].fields
    && payload.fields[CollectionKey(plural)].fields[plural].JArray?
  }

  /** The items of a find-all payload: the list inside the collection
      envelope, a bare list as it is, and any other value as a one-element list. */
  function Unbox(payload: Json, plural: string): (items: seq<Json>)
    ensures IsEnvelope(payload, plural) ==>
              items == payload.fields[CollectionKey(plural)].fields[plural].items
    ensures !IsEnvelope(payload, plural) && payload.JArray? ==> items == payload.items
    ensures !IsEnvelope(payload, plural) && !payload.JArray? ==> items == [payload]
  {
    if IsEnvelope(payload, plural) then payload.fields[CollectionKey(plural)].fields[plural].items
    else if payload.JArray? then payload.items
    else [payload]
  }

  /** The payload the backend sends for a collection. */
  function Envelope(items: seq<Json>, plural: string): (payload: Json)
    ensures IsEnvelope(payload, plural)
  {
    JObject(map[CollectionKey(plural) := JObject(map[plural := JArray(items)])])
  }

  /** Wrapping a list in the envelope and unwrapping it gives the list back. */
  lemma EnvelopeRoundTrip(items: seq<Json>, plural: string)
    ensures Unbox(Envelope(items, plural), plural) == items
  {
  }

  /** An object without the envelope key is a collection of one. */
  lemma BareObjectIsSingleton(fields: map<string, Json>, plural: string)
    requires CollectionKey(plural) !in fields
    ensures Unbox(JObject(fields), plural) == [JObject(fields)]
  {
  }

  /** The two payloads of the find-all examples both give one item `{id: 1}`. */
  lemma DummyModelsPayloads()
    ensures var item := JObject(map["id" := JNum(1)]);
            && Unbox(Envelope([item], "dummy_models"), "dummy_models") == [item]
            && Unbox(item, "dummy_models") == [item]
  {
    var item := JObject(map["id" := JNum(1)]);
    EnvelopeRoundTrip([item], "dummy_models");
    assert "dummy_models_collection" != "id";
    BareObjectIsSingleton(map["id" := JNum(1)], "dummy_models");
  }
}

=== FILE: naming.dfy ===
/**
 * The naming resolver of the Cacheable model base: the six names of a model
 * type (model, table and title form, singular and plural) come from
 * `root_object` and `root_collection` unless they are given explicitly.
 * `dummy_model` gives `DummyModel`, `dummy_model` and `Dummy Model`.
 */
module Naming {
  import opened Outcomes
  import opened Text

  /** CamelCase form: every `_` is dropped and the character after it, like
      the first character, is upper-cased (`dummy_model` → `DummyModel`).
      `up` says whether the next character starts a word. */
  function Camelize(s: string, up: bool): string
  {
    if s == [] then []
    else if s[0] == '_' then Camelize(s[1..], true)
    else [if up then ToUpper(s[0]) else s[0]] + Camelize(s[1..], false)
  }

  /** The characters of a name other than `_`, lower-cased, in order. */
  function Letters(s: string): string
  {
    if s == [] then []
    else if s[0] == '_' then Letters(s[1..])
    else [ToLower(s[0])] + Letters(s[1..])
  }

  predicate NoUnderscore(s: string) {
    forall i :: 0 <= i < |s| ==> s[i] != '_'
  }

  /** Camelizing drops every `_` and keeps the other characters, in order, up to case. */
  lemma {:induction false} CamelizeKeepsLetters(s: string, up: bool)
    ensures NoUnderscore(Camelize(s, up))
    ensures Letters(Camelize(s, up)) == Letters(s)
    decreases |s|
  {
    if s != [] {
      CamelizeKeepsLetters(s[1..], s[0] == '_');
      if s[0] != '_' {
        var c := if up then ToUpper(s[0]) else s[0];
        var rest := Camelize(s[1..], false);
        assert Camelize(s, up) == [c] + rest;
        assert ([c] + rest)[1..] == rest;
        assert forall i :: 1 <= i < |[c] + rest| ==> ([c] + rest)[i] == rest[i - 1];
      }
    }
  }

  /** `camelize`: no `_` is left and the other characters stay, in order, up to case. */
  function CamelCase(s: string): (r: string)
    ensures NoUnderscore(r)
    ensures Letters(r) == Letters(s)
  {
    CamelizeKeepsLetters(s, true);
    Camelize(s, true)
  }

  /** Human-readable form: every `_` becomes a space and every word is
      capitalised (`dummy_model` → `Dummy Model`). */
  function Humanize(s: string, up: bool): string
  {
    if s == [] then []
    else if s[0] == '_' then [' '] + Humanize(s[1..], true)
    else [if up then ToUpper(s[0]) else s[0]] + Humanize(s[1..], false)
  }

  /** Humanizing, character by character: `_` becomes a space, a character
      that opens a word is upper-cased, and any other is kept. */
  lemma {:induction false} HumanizeAt(s: string, up: bool, i: nat)
    requires i < |s|
    ensures |Humanize(s, up)| == |s|
    ensures Humanize(s, up)[i] ==
              if s[i] == '_' then ' '
              else if (if i == 0 then up else s[i - 1] == '_') then ToUpper(s[i])
              else s[i]
    decreases |s|
  {
    if i == 0 {
      HumanizeLength(s[1..], s[0] == '_');
    } else {
      HumanizeAt(s[1..], s[0] == '_', i - 1);
      assert s[1..][i - 1] == s[i];
      if i >= 2 {
        assert s[1..][i - 2] == s[i - 1];
      }
    }
  }

  lemma {:induction false} HumanizeLength(s: string, up: bool)
    ensures |Humanize(s, up)| == |s|
    decreases |s|
  {
    if s != [] {
      HumanizeLength(s[1..], s[0] == '_');
    }
  }

  /** `titleize`: as long as the name, `_` turned into spaces and each word's
      first character upper-cased. */
  function TitleCase(s: string): (r: string)
    ensures |r| == |s|
    ensures forall i :: 0 <= i < |s| ==>
              r[i] == if s[i] == '_' then ' ' else if i == 0 || s[i - 1] == '_' then ToUpper(s[i]) else s[i]
  {
    HumanizeLength(s, true);
    forall i | 0 <= i < |s| ensures Humanize(s, true)[i] ==
      if s[i] == '_' then ' ' else if i == 0 || s[i - 1] == '_' then ToUpper(s[i]) else s[i]
    {
      HumanizeAt(s, true, i);
    }
    Humanize(s, true)
  }

  /** Underscored form of a CamelCase name: each upper-case letter is
      lower-cased and, unless it opens the name, preceded by `_`. */
  function Underscore(s: string, first: bool): string
  {
    if s == [] then []
    else
      (if IsAsciiUpper(s[0]) then (if first then "" else "_") + [ToLower(s[0])] else [s[0]])
      + Underscore(s[1..], false)
  }

  function SnakeCase(s: string): string
  {
    Underscore(s, true)
  }

  function RemoveSpaces(s: string): string
  {
    if s == [] then []
    else if s[0] == ' ' then RemoveSpaces(s[1..])
    else [s[0]] + RemoveSpaces(s[1..])
  }

  /** The rest of a snake_case token: lower-case letters, digits and single
      underscores, each underscore followed by a lower-case letter. */
  predicate SnakeTail(s: string) {
    && (forall i :: 0 <= i < |s| ==> IsAsciiLower(s[i]) || IsDigit(s[i]) || s[i] == '_')
    && (forall i :: 0 <= i < |s| && s[i] == '_' ==> i + 1 < |s| && IsAsciiLower(s[i + 1]))
  }

  /** A snake_case token such as `dummy_model`: it starts with a lower-case letter. */
  predicate IsSnakeToken(s: string) {
    s != [] && IsAsciiLower(s[0]) && SnakeTail(s)
  }

  lemma SnakeTailDrop(s: string, k: nat)
    requires SnakeTail(s) && k <= |s|
    ensures SnakeTail(s[k..])
  {
    assert forall i :: 0 <= i < |s| - k ==> s[k..][i] == s[k + i];
  }

  lemma {:induction false} UnderscoreCamelizeTail(s: string)
    requires SnakeTail(s)
    ensures Underscore(Camelize(s, false), false) == s
    decreases |s|
  {
    if s == [] {
    } else if s[0] == '_' {
      SnakeTailDrop(s, 2);
      UnderscoreCamelizeTail(s[2..]);
      var rest := Camelize(s[2..], false);
      assert Camelize(s, false) == [ToUpper(s[1])] + rest;
      assert ([ToUpper(s[1])] + rest)[1..] == rest;
      assert s == "_" + [s[1]] + s[2..];
    } else {
      SnakeTailDrop(s, 1);
      UnderscoreCamelizeTail(s[1..]);
      var rest := Camelize(s[1..], false);
      assert Camelize(s, false) == [s[0]] + rest;
      assert ([s[0]] + rest)[1..] == rest;
      assert s == [s[0]] + s[1..];
    }
  }

  /** CamelCase ⇄ snake_case: the underscored form of the CamelCase name of a
      snake_case token is the token itself. */
  lemma SnakeCamelRoundTrip(s: string)
    requires IsSnakeToken(s)
    ensures SnakeCase(CamelCase(s)) == s
  {
    SnakeTailDrop(s, 1);
    UnderscoreCamelizeTail(s[1..]);
    var rest := Camelize(s[1..], false);
    assert CamelCase(s) == [ToUpper(s[0])] + rest;
    assert ([ToUpper(s[0])] + rest)[1..] == rest;
    assert s == [s[0]] + s[1..];
  }

  /** The human-readable name without its spaces is the CamelCase name. */
  lemma {:induction false} HumanizeWithoutSpaces(s: string, up: bool)
    requires forall i :: 0 <= i < |s| ==> s[i] != ' '
    ensures RemoveSpaces(Humanize(s, up)) == Camelize(s, up)
    decreases |s|
  {
    if s != [] {
      if s[0] == '_' {
        HumanizeWithoutSpaces(s[1..], true);
        var h := Humanize(s[1..], true);
        assert ([' '] + h)[1..] == h;
      } else {
        HumanizeWithoutSpaces(s[1..], false);
        var h := Humanize(s[1..], false);
        var c := if up then ToUpper(s[0]) else s[0];
        assert ([c] + h)[1..] == h;
        assert c != ' ';
      }
    }
  }

  /** The six names of a model type. */
  datatype NameSet = NameSet(
    modelSingular: string, tableSingular: string, titleSingular: string,
    modelPlural: string, tablePlural: string, titlePlural: string)

  /** Names given explicitly on the model type. */
  datatype NameOverrides = NameOverrides(
    modelSingular: Option<string>, tableSingular: Option<string>, titleSingular: Option<string>,
    modelPlural: Option<string>, tablePlural: Option<string>, titlePlural: Option<string>)

  const NoOverrides := NameOverrides(None, None, None, None, None, None)

  predicate AllExplicit(o: NameOverrides) {
    && o.modelSingular.Some? && o.tableSingular.Some? && o.titleSingular.Some?
    && o.modelPlural.Some? && o.tablePlural.Some? && o.titlePlural.Some?
  }

  /** A name is the explicit value when there is one, the derived value otherwise. */
  predicate Chosen(explicit: Option<string>, derived: string, name: string) {
    name == if explicit.Some? then explicit.value else derived
  }

  function Pick(explicit: Option<string>, derived: string): (name: string)
    ensures Chosen(explicit, derived, name)
  {
    match explicit
    case Some(v) => v
    case None => derived
  }

  /** Setup of the names: an explicit name always wins; otherwise the model
      name is the CamelCase form, the table name the root name itself and the
      title the human-readable form, singular from `root_object` and plural
      from `root_collection`. */
  function ResolveNames(rootObject: string, rootCollection: string, o: NameOverrides): (n: NameSet)
    ensures Chosen(o.modelSingular, CamelCase(rootObject), n.modelSingular)
    ensures Chosen(o.tableSingular, rootObject, n.tableSingular)
    ensures Chosen(o.titleSingular, TitleCase(rootObject), n.titleSingular)
    ensures Chosen(o.modelPlural, CamelCase(rootCollection), n.modelPlural)
    ensures Chosen(o.tablePlural, rootCollection, n.tablePlural)
    ensures Chosen(o.titlePlural, TitleCase(rootCollection), n.titlePlural)
  {
    NameSet(
      Pick(o.modelSingular, CamelCase(rootObject)),
      Pick(o.tableSingular, rootObject),
      Pick(o.titleSingular, TitleCase(rootObject)),
      Pick(o.modelPlural, CamelCase(rootCollection)),
      Pick(o.tablePlural, rootCollection),
      Pick(o.titlePlural, TitleCase(rootCollection)))
  }

  /** With all six names explicit, the root names play no part at all. */
  lemma ExplicitNamesWin(o: NameOverrides, rootObject: string, rootCollection: string,
                         otherObject: string, otherCollection: string)
    requires AllExplicit(o)
    ensures ResolveNames(rootObject, rootCollection, o) == ResolveNames(otherObject, otherCollection, o)
    ensures ResolveNames(rootObject, rootCollection, o) == NameSet(
              o.modelSingular.value, o.tableSingular.value, o.titleSingular.value,
              o.modelPlural.value, o.tablePlural.value, o.titlePlural.value)
  {
  }

  /** The derived names of one form agree with each other: the table name is
      the underscored model name and the title without spaces is the model name. */
  lemma DerivedNamesAgree(rootObject: string, rootCollection: string)
    requires IsSnakeToken(rootObject) && IsSnakeToken(rootCollection)
    ensures var n := ResolveNames(rootObject, rootCollection, NoOverrides);
            && SnakeCase(n.modelSingular) == n.tableSingular
            && SnakeCase(n.modelPlural) == n.tablePlural
            && RemoveSpaces(n.titleSingular) == n.modelSingular
            && RemoveSpaces(n.titlePlural) == n.modelPlural
  {
    SnakeCamelRoundTrip(rootObject);
    SnakeCamelRoundTrip(rootCollection);
    HumanizeWithoutSpaces(rootObject, true);
    HumanizeWithoutSpaces(rootCollection, true);
  }

  /** A word without `_` passes through both transforms with only its first
      character changed. */
  lemma {:induction false} WordThroughTransforms(w: string, rest: string, up: bool)
    requires w != [] && forall i :: 0 <= i < |w| ==> w[i] != '_'
    ensures Camelize(w + rest, up) == [if up then ToUpper(w[0]) else w[0]] + w[1..] + Camelize(rest, false)
    ensures Humanize(w + rest, up) == [if up then ToUpper(w[0]) else w[0]] + w[1..] + Humanize(rest, false)
    decreases |w|
  {
    assert (w + rest)[1..] == w[1..] + rest;
    if |w| > 1 {
      WordThroughTransforms(w[1..], rest, false);
      assert [w[1..][0]] + w[1..][1..] == w[1..];
    } else {
      assert w[1..] + rest == rest;
    }
  }

  /** A name made of two words joined by `_`: each word is capitalised, and
      the `_` is dropped in the CamelCase form (`camel`) and becomes a space
      in the title form (`title`). */
  lemma TwoWords(s: string, a: string, b: string, camel: string, title: string)
    requires a != [] && forall i :: 0 <= i < |a| ==> a[i] != '_'
    requires b != [] && forall i :: 0 <= i < |b| ==> b[i] != '_'
    requires s == a + "_" + b
    requires camel == [ToUpper(a[0])] + a[1..] + [ToUpper(b[0])] + b[1..]
    requires title == [ToUpper(a[0])] + a[1..] + " " + [ToUpper(b[0])] + b[1..]
    ensures CamelCase(s) == camel && TitleCase(s) == title
  {
    assert s == a + ("_" + b);
    WordThroughTransforms(a, "_" + b, true);
    assert ("_" + b)[1..] == b + "";
    WordThroughTransforms(b, "", true);
  }
}

/** The naming examples of the model-base test suite. */
module NamingExamples {
  import opened Outcomes
  import opened Naming
  import opened Text

  lemma DummyModel()
    ensures CamelCase("dummy_model") == "DummyModel"
    ensures TitleCase("dummy_model") == "Dummy Model"
  {
    var a, b := "dummy", "model";
    assert a[0] != '_' && a[1] != '_' && a[2] != '_' && a[3] != '_' && a[4] != '_';
    assert b[0] != '_' && b[1] != '_' && b[2] != '_' && b[3] != '_' && b[4] != '_';
    TwoWords("dummy_model", a, b, "DummyModel", "Dummy Model");
  }

  lemma DummyModels()
    ensures CamelCase("dummy_models") == "DummyModels"
    ensures TitleCase("dummy_models") == "Dummy Models"
  {
    var a, b := "dummy", "models";
    assert a[0] != '_' && a[1] != '_' && a[2] != '_' && a[3] != '_' && a[4] != '_';
    assert b[0] != '_' && b[1] != '_' && b[2] != '_' && b[3] != '_' && b[4] != '_' && b[5] != '_';
    TwoWords("dummy_models", a, b, "DummyModels", "Dummy Models");
  }

  /** The names of the `dummy_model` type without explicit names. */
  lemma DummyModelNames()
    ensures ResolveNames("dummy_model", "dummy_models", NoOverrides)
            == NameSet("DummyModel", "dummy_model", "Dummy Model", "DummyModels", "dummy_models", "Dummy Models")
  {
    DummyModel();
    DummyModels();
  }

  /** Explicit names given next to other root names are kept verbatim. */
  lemma RightNameOverrides()
    ensures ResolveNames("wrong_name", "wrong_names", NameOverrides(
              Some("RightName"), Some("right_name"), Some("Right Name"),
              Some("RightNames"), Some("right_names"), Some("Right Names")))
            == NameSet("RightName", "right_name", "Right Name", "RightNames", "right_names", "Right Names")
  {
  }
}

=== FILE: refresh.dfy ===
/**
 * `refresh` of a Cacheable instance: the request it issues, the per-instance
 * throttle that lets at most one request out per 1000 ms window, and the
 * merge of the response into the instance followed by the backup snapshot.
 * Time is an explicit input, in milliseconds.
 */
module Refresh {
  import opened Outcomes

  /** Length of the throttle window, in milliseconds. */
  const ThrottleWindow: int := 1000

  /** The throttle of one instance: when its last request went out, if ever. */
  datatype Throttle = Throttle(lastFetch: Option<int>)

  const Idle := Throttle(None)

  /** Whether a refresh at `now` issues a request: the first one does, and
      a later one once the window since the last request has elapsed. */
  predicate WindowOpen(t: Throttle, now: int) {
    t.lastFetch.None? || now - t.lastFetch.value >= ThrottleWindow
  }

  /** The outcome of one `refresh` call: the new throttle state and whether
      a request went out. */
  datatype Step = Step(state: Throttle, fetched: bool)

  function OnRefresh(t: Throttle, now: int): (s: Step)
    ensures s.fetched <==> WindowOpen(t, now)
    ensures s.fetched ==> s.state.lastFetch == Some(now)
    ensures !s.fetched ==> s.state == t
  {
    if WindowOpen(t, now) then Step(Throttle(Some(now)), true) else Step(t, false)
  }

  /** The calls at `times`, in order: the final state, and for each call the
      number of the request whose result it receives (requests numbered from
      `served`, the count of requests made before). */
  function Run(t: Throttle, times: seq<int>, served: nat): (r: (Throttle, seq<nat>))
    ensures |r.1| == |times|
    decreases |times|
  {
    if times == [] then (t, [])
    else
      var s := OnRefresh(t, times[0]);
      var n := if s.fetched then served + 1 else served;
      var rest := Run(s.state, times[1..], n);
      (rest.0, [n] + rest.1)
  }

  /** The number of the latest request before a call, given the numbers
      the earlier calls received (`served` when there were none). */
  function Latest(numbers: seq<nat>, served: nat): nat
  {
    if numbers == [] then served else numbers[|numbers| - 1]
  }

  /** The number of requests the calls at `times` make from an idle instance. */
  function Fetches(times: seq<int>): nat
  {
    Latest(Run(Idle, times, 0).1, 0)
  }

  /** A call at `now` ahead of the calls at `times`. */
  lemma RunCons(t: Throttle, now: int, times: seq<int>, served: nat)
    ensures var s := OnRefresh(t, now);
            var n := if s.fetched then served + 1 else served;
            Run(t, [now] + times, served) == (Run(s.state, times, n).0, [n] + Run(s.state, times, n).1)
  {
    assert ([now] + times)[0] == now && ([now] + times)[1..] == times;
  }

  /** One more call at `now` after the calls at `times`: the earlier calls
      receive what they received before, the state they left is stepped, and
      the new call receives the latest request, or a new one exactly when
      its window is open. */
  lemma {:induction false} RunSnoc(t: Throttle, times: seq<int>, now: int, served: nat)
    ensures var r := Run(t, times, served);
            var s := OnRefresh(r.0, now);
            Run(t, times + [now], served)
            == (s.state, r.1 + [if s.fetched then Latest(r.1, served) + 1 else Latest(r.1, served)])
    decreases |times|
  {
    if times == [] {
      RunCons(t, now, [], served);
      var s := OnRefresh(t, now);
      var n := if s.fetched then served + 1 else served;
      assert [now] + [] == times + [now];
      assert Run(s.state, [], n) == (s.state, []);
      assert [n] + [] == [n] && [] + [n] == [n];
    } else {
      var s0 := OnRefresh(t, times[0]);
      var n := if s0.fetched then served + 1 else served;
      var rest := Run(s0.state, times[1..], n);
      RunCons(t, times[0], times[1..], served);
      assert [times[0]] + times[1..] == times;
      assert Run(t, times, served) == (rest.0, [n] + rest.1);
      RunCons(t, times[0], times[1..] + [now], served);
      assert [times[0]] + (times[1..] + [now]) == times + [now];
      RunSnoc(s0.state, times[1..], now, n);
      var sN := OnRefresh(rest.0, now);
      var last := if sN.fetched then Latest(rest.1, n) + 1 else Latest(rest.1, n);
      assert Run(s0.state, times[1..] + [now], n) == (sN.state, rest.1 + [last]);
      assert Latest([n] + rest.1, served) == Latest(rest.1, n);
      assert [n] + (rest.1 + [last]) == ([n] + rest.1) + [last];
    }
  }

  /** Later calls do not change what earlier calls receive: the first `i`
      numbers of a run are the numbers of the run of the first `i` calls. */
  lemma {:induction false} RunPrefix(t: Throttle, times: seq<int>, served: nat, i: nat)
    requires i <= |times|
    ensures Run(t, times, served).1[..i] == Run(t, times[..i], served).1
    decreases |times|
  {
    if i > 0 {
      var s0 := OnRefresh(t, times[0]);
      var n := if s0.fetched then served + 1 else served;
      RunPrefix(s0.state, times[1..], n, i - 1);
      assert times[..i][0] == times[0];
      assert times[..i][1..] == times[1..][..i - 1];
    }
  }

  /** Which request call `i` receives: the latest request before it, or a
      new one exactly when the state left by the calls before it has its
      window open at `times[i]`. */
  lemma ServedByCall(t: Throttle, times: seq<int>, served: nat, i: nat)
    requires i < |times|
    ensures var before := Run(t, times[..i], served);
            Run(t, times, served).1[i]
            == if WindowOpen(before.0, times[i]) then Latest(before.1, served) + 1 else Latest(before.1, served)
  {
    RunPrefix(t, times, served, i + 1);
    assert times[..i + 1] == times[..i] + [times[i]];
    RunSnoc(t, times[..i], times[i], served);
    assert Run(t, times, served).1[..i + 1][i] == Run(t, times, served).1[i];
  }

  /** Calls that all fall within the window of a request already made issue
      no request and receive that request's result. */
  lemma {:induction false} WithinWindowShares(t: Throttle, times: seq<int>, served: nat)
    requires t.lastFetch.Some?
    requires forall i :: 0 <= i < |times| ==> times[i] - t.lastFetch.value < ThrottleWindow
    ensures Run(t, times, served).0 == t
    ensures forall i :: 0 <= i < |times| ==> Run(t, times, served).1[i] == served
    decreases |times|
  {
    if times != [] {
      WithinWindowShares(t, times[1..], served);
    }
  }

  /** Calls within one window starting at the first of them make exactly one
      request, and every call receives its result. */
  lemma OneWindowOneFetch(times: seq<int>)
    requires times != []
    requires forall i :: 0 <= i < |times| ==> times[0] <= times[i] < times[0] + ThrottleWindow
    ensures Fetches(times) == 1
    ensures forall i :: 0 <= i < |times| ==> Run(Idle, times, 0).1[i] == 1
  {
    var t := Throttle(Some(times[0]));
    assert forall i :: 0 <= i < |times[1..]| ==> times[1..][i] == times[i + 1];
    WithinWindowShares(t, times[1..], 1);
  }

  /** A call once the window has elapsed makes a new request. */
  lemma AfterWindowFetches(t: Throttle, now: int)
    requires t.lastFetch.Some? && now >= t.lastFetch.value + ThrottleWindow
    ensures OnRefresh(t, now).fetched
  {
  }

  /** Three calls at once and one a full window later: two requests. */
  lemma ThrottleScenario()
    ensures Fetches([0, 0, 0, 1000]) == 2
    ensures Run(Idle, [0, 0, 0, 1000], 0).1 == [1, 1, 1, 2]
  {
    var t := Throttle(Some(0));
    var last := Throttle(Some(1000));
    assert OnRefresh(Idle, 0) == Step(t, true);
    assert OnRefresh(t, 0) == Step(t, false);
    assert OnRefresh(t, 1000) == Step(last, true);
    var r3 := Run(t, [1000], 1);
    assert [1000][1..] == [] && r3 == (last, [2] + Run(last, [], 2).1);
    var r2 := Run(t, [0, 1000], 1);
    assert [0, 1000][1..] == [1000] && r2 == (last, [1] + r3.1);
    var r1 := Run(t, [0, 0, 1000], 1);
    assert [0, 0, 1000][1..] == [0, 1000] && r1 == (last, [1] + r2.1);
    var r0 := Run(Idle, [0, 0, 0, 1000], 0);
    assert [0, 0, 0, 1000][1..] == [0, 0, 1000] && r0 == (last, [1] + r1.1);
    assert r0.1 == [1, 1, 1, 2];
  }

  /** The request of a refresh: a GET on the instance's `selfLink`, or on its
      `href` when it has none (the empty string stands for a missing link). */
  datatype Request = Request(verb: string, url: string)

  function RefreshRequest(selfLink: string, href: string): (q: Request)
    ensures q.verb == "get"
    ensures selfLink != "" ==> q.url == selfLink
    ensures selfLink == "" ==> q.url == href
  {
    Request("get", if selfLink != "" then selfLink else href)
  }

  /** The attributes of an instance and its backup snapshot. */
  datatype Instance = Instance(attrs: map<string, string>, backup: map<string, string>)

  /** An instance whose backup equals its attributes has no unsaved changes. */
  predicate IsClean(inst: Instance) {
    inst.backup == inst.attrs
  }

  /** Completing a refresh: the response is merged into the attributes, its
      values winning, and the merged state is backed up at once. */
  function CompleteRefresh(inst: Instance, response: map<string, string>): (r: Instance)
    ensures IsClean(r)
    ensures r.attrs.Keys == inst.attrs.Keys + response.Keys
    ensures forall a :: a in response ==> r.attrs[a] == response[a]
    ensures forall a :: a in inst.attrs && a !in response ==> r.attrs[a] == inst.attrs[a]
  {
    var merged := inst.attrs + response;
    Instance(merged, merged)
  }

  /** Receiving the same response twice changes nothing the second time. */
  lemma RefreshIdempotent(inst: Instance, response: map<string, string>)
    ensures CompleteRefresh(CompleteRefresh(inst, response), response) == CompleteRefresh(inst, response)
  {
  }

  /** Local edits not touched by the response survive the refresh, and
      become part of the backup. */
  lemma RefreshKeepsUntouched(inst: Instance, response: map<string, string>, a: string)
    requires a in inst.attrs && a !in response
    ensures CompleteRefresh(inst, response).backup[a] == inst.attrs[a]
  {
  }

  /** The instance with `href: '/api/dummy_models/1'` and no `selfLink`. */
  lemma HrefRequest()
    ensures RefreshRequest("", "/api/dummy_models/1") == Request("get", "/api/dummy_models/1")
  {
  }
}

=== FILE: slug.dfy ===
/**
 * `sanitizeSlug` of the Drive picker launcher: the slug is lower-cased and
 * every maximal run of characters outside `\w` becomes a single `-`
 * (`slug.toLowerCase().replace(/\W+/g, '-')`).
 */
module Slug {
  import opened Text

  /** The shape of a sanitised slug: no upper case, `-` is the only non-word
      character, and no two non-word characters are adjacent. */
  predicate IsSlug(s: string) {
    && NoUpper(s)
    && SlugChars(s)
    && NoAdjacentNonWord(s)
  }

  predicate NoAdjacentNonWord(s: string) {
    forall i :: 0 <= i < |s| - 1 ==> IsWordChar(s[i]) || IsWordChar(s[i + 1])
  }

  /** The word characters of `s`, in order. */
  function WordChars(s: string): string
  {
    if s == [] then []
    else if IsWordChar(s[0]) then [s[0]] + WordChars(s[1..])
    else WordChars(s[1..])
  }

  /** The rest of `s` after its leading run of non-word characters. */
  function DropNonWord(s: string): (r: string)
    ensures |r| <= |s| && r == s[|s| - |r|..]
    ensures r == [] || IsWordChar(r[0])
    ensures forall i :: 0 <= i < |s| - |r| ==> !IsWordChar(s[i])
  {
    if s == [] || IsWordChar(s[0]) then s else DropNonWord(s[1..])
  }

  /** The global replacement of `/\W+/` by `-`. */
  function CollapseRuns(s: string): (r: string)
    ensures (r == []) == (s == [])
    ensures |r| <= |s|
    ensures r != [] ==> (IsWordChar(r[0]) <==> IsWordChar(s[0]))
    decreases |s|
  {
    if s == [] then []
    else if IsWordChar(s[0]) then [s[0]] + CollapseRuns(s[1..])
    else ['-'] + CollapseRuns(DropNonWord(s[1..]))
  }

  /** `sanitizeSlug`: never longer than the slug, and empty only for the empty slug. */
  function Sanitize(slug: string): (r: string)
    ensures |r| <= |slug|
    ensures r == [] <==> slug == []
  {
    CollapseRuns(LowerCase(slug))
  }

  predicate AllNonWord(s: string) {
    forall i :: 0 <= i < |s| ==> !IsWordChar(s[i])
  }

  /** Dropping the leading non-word run stops exactly at the next word character. */
  lemma {:induction false} DropNonWordRun(n: string, t: string)
    requires AllNonWord(n)
    requires t == [] || IsWordChar(t[0])
    ensures DropNonWord(n + t) == t
    decreases |n|
  {
    if n == [] {
      assert n + t == t;
    } else {
      assert (n + t)[1..] == n[1..] + t;
      DropNonWordRun(n[1..], t);
    }
  }

  /** A non-word run at the start, up to a word character or the end, becomes one `-`. */
  lemma CollapseRunsLeadingRun(n: string, t: string)
    requires n != [] && AllNonWord(n)
    requires t == [] || IsWordChar(t[0])
    ensures CollapseRuns(n + t) == "-" + CollapseRuns(t)
  {
    assert (n + t)[0] == n[0] && (n + t)[1..] == n[1..] + t;
    DropNonWordRun(n[1..], t);
  }

  /** A leading word character is copied. */
  lemma CollapseRunsWordHead(c: char, s: string)
    requires IsWordChar(c)
    ensures CollapseRuns([c] + s) == [c] + CollapseRuns(s)
  {
    assert ([c] + s)[0] == c && ([c] + s)[1..] == s;
  }

  /** The replacement rewrites a maximal non-word run, whatever its length,
      into exactly one `-` and leaves the word characters before it alone. */
  lemma {:induction false} CollapseRunsRun(w: string, n: string, t: string)
    requires AllWordChars(w)
    requires n != [] && AllNonWord(n)
    requires t == [] || IsWordChar(t[0])
    ensures CollapseRuns(w + n + t) == w + ("-" + CollapseRuns(t))
    decreases |w|
  {
    if w == [] {
      var tail := CollapseRuns(t);
      assert w + n + t == n + t && w + ("-" + tail) == "-" + tail;
      CollapseRunsLeadingRun(n, t);
    } else {
      var rest := w[1..] + n + t;
      var tail := CollapseRuns(t);
      assert CollapseRuns(w + n + t) == [w[0]] + CollapseRuns(rest) by {
        assert w + n + t == [w[0]] + rest;
        CollapseRunsWordHead(w[0], rest);
      }
      assert CollapseRuns(rest) == w[1..] + ("-" + tail) by {
        assert AllWordChars(w[1..]);
        CollapseRunsRun(w[1..], n, t);
      }
      assert [w[0]] + (w[1..] + ("-" + tail)) == w + ("-" + tail);
    }
  }

  /** Every character is a word character or `-`. */
  predicate SlugChars(s: string) {
    forall i :: 0 <= i < |s| ==> IsWordChar(s[i]) || s[i] == '-'
  }

  /** The replacement writes only word characters and `-`. */
  lemma {:induction false} CollapseRunsChars(s: string)
    ensures SlugChars(CollapseRuns(s))
    decreases |s|
  {
    if s == [] {
    } else if IsWordChar(s[0]) {
      CollapseRunsChars(s[1..]);
      assert CollapseRuns(s) == [s[0]] + CollapseRuns(s[1..]);
    } else {
      var d := DropNonWord(s[1..]);
      CollapseRunsChars(d);
      assert CollapseRuns(s) == ['-'] + CollapseRuns(d);
    }
  }

  /** The replacement brings in no upper-case letter. */
  lemma {:induction false} CollapseRunsNoUpper(s: string)
    requires NoUpper(s)
    ensures NoUpper(CollapseRuns(s))
    decreases |s|
  {
    if s == [] {
    } else if IsWordChar(s[0]) {
      assert NoUpper(s[1..]) by {
        assert forall i :: 0 <= i < |s| - 1 ==> s[1..][i] == s[i + 1];
      }
      CollapseRunsNoUpper(s[1..]);
      assert CollapseRuns(s) == [s[0]] + CollapseRuns(s[1..]);
    } else {
      var d := DropNonWord(s[1..]);
      assert NoUpper(d) by {
        assert forall i :: 0 <= i < |d| ==> d[i] == s[|s| - |d| + i];
      }
      CollapseRunsNoUpper(d);
      assert CollapseRuns(s) == ['-'] + CollapseRuns(d);
    }
  }

  /** The replacement never writes two non-word characters in a row. */
  lemma {:induction false} CollapseRunsNoAdjacent(s: string)
    ensures NoAdjacentNonWord(CollapseRuns(s))
    decreases |s|
  {
    if s == [] {
    } else if IsWordChar(s[0]) {
      CollapseRunsNoAdjacent(s[1..]);
      var t := CollapseRuns(s[1..]);
      assert CollapseRuns(s) == [s[0]] + t;
      assert forall i :: 1 <= i < |t| ==> ([s[0]] + t)[i] == t[i - 1];
    } else {
      var d := DropNonWord(s[1..]);
      CollapseRunsNoAdjacent(d);
      var t := CollapseRuns(d);
      assert CollapseRuns(s) == ['-'] + t;
      assert forall i :: 1 <= i < |t| ==> (['-'] + t)[i] == t[i - 1];
    }
  }

  /** The replacement keeps the word characters, in order. */
  lemma {:induction false} CollapseRunsWords(s: string)
    ensures WordChars(CollapseRuns(s)) == WordChars(s)
    decreases |s|
  {
    if s == [] {
    } else if IsWordChar(s[0]) {
      CollapseRunsWords(s[1..]);
      var t := CollapseRuns(s[1..]);
      assert CollapseRuns(s) == [s[0]] + t;
      assert ([s[0]] + t)[1..] == t;
    } else {
      var d := DropNonWord(s[1..]);
      CollapseRunsWords(d);
      var t := CollapseRuns(d);
      assert CollapseRuns(s) == ['-'] + t;
      assert (['-'] + t)[1..] == t;
      WordCharsOfNonWordRun(s, |s| - |d|);
      assert s[|s| - |d|..] == d;
    }
  }

  /** Dropping a prefix made only of non-word characters keeps the word characters. */
  lemma {:induction false} WordCharsOfNonWordRun(s: string, k: nat)
    requires k <= |s|
    requires forall i :: 0 <= i < k ==> !IsWordChar(s[i])
    ensures WordChars(s) == WordChars(s[k..])
    decreases k
  {
    if k > 0 {
      assert s[1..][k - 1..] == s[k..];
      WordCharsOfNonWordRun(s[1..], k - 1);
    }
  }

  /** Slug shape, apart from letter case. */
  predicate Collapsed(s: string) {
    SlugChars(s) && NoAdjacentNonWord(s)
  }

  lemma CollapsedTail(s: string)
    requires s != [] && Collapsed(s)
    ensures Collapsed(s[1..])
  {
    assert forall i :: 0 <= i < |s[1..]| ==> s[1..][i] == s[i + 1];
  }

  /** A collapsed string is left unchanged by the replacement. */
  lemma {:induction false} CollapsedIsFixed(s: string)
    requires Collapsed(s)
    ensures CollapseRuns(s) == s
    decreases |s|
  {
    if s != [] {
      CollapsedTail(s);
      CollapsedIsFixed(s[1..]);
      if !IsWordChar(s[0]) {
        if |s| > 1 {
          assert IsWordChar(s[1]);
        }
        assert DropNonWord(s[1..]) == s[1..];
      }
      assert s == [s[0]] + s[1..];
    }
  }

  /** A string is left unchanged by the replacement exactly when every
      non-word character is a lone `-`. */
  lemma CollapseRunsFixedPoint(s: string)
    ensures CollapseRuns(s) == s <==> Collapsed(s)
  {
    CollapseRunsChars(s);
    CollapseRunsNoAdjacent(s);
    if Collapsed(s) {
      CollapsedIsFixed(s);
    }
  }

  /** `sanitizeSlug` always yields a slug-shaped string. */
  lemma SanitizeIsSlug(slug: string)
    ensures IsSlug(Sanitize(slug))
  {
    CollapseRunsChars(LowerCase(slug));
    CollapseRunsNoUpper(LowerCase(slug));
    CollapseRunsNoAdjacent(LowerCase(slug));
  }

  /** Sanitising keeps exactly the lower-cased word characters of the input. */
  lemma SanitizeKeepsWords(slug: string)
    ensures WordChars(Sanitize(slug)) == WordChars(LowerCase(slug))
  {
    CollapseRunsWords(LowerCase(slug));
  }

  /** A string is its own sanitised form exactly when it is slug-shaped. */
  lemma SanitizeFixedPoint(s: string)
    ensures Sanitize(s) == s <==> IsSlug(s)
  {
    SanitizeIsSlug(s);
    if IsSlug(s) {
      LowerCaseOfLower(s);
      CollapseRunsFixedPoint(s);
    }
  }

  /** Sanitising twice is the same as sanitising once. */
  lemma SanitizeIdempotent(slug: string)
    ensures Sanitize(Sanitize(slug)) == Sanitize(slug)
  {
    SanitizeIsSlug(slug);
    SanitizeFixedPoint(Sanitize(slug));
  }
}

=== FILE: text.dfy ===
/** Failure-compatible wrappers shared by every module of the model. */
module Outcomes {

  /** A value that may be absent (JavaScript `undefined`). */
  datatype Option<+T> = None | Some(value: T)

  /** The result of an operation that either yields a value or throws / rejects. */
  datatype Result<+R, +E> = Success(value: R) | Failure(error: E)
}

/**
 * Character classes and string helpers with the meaning they have in the
 * JavaScript the model follows: `\w` of a regular expression without the `u`
 * flag, `.` that stops at line terminators, `Array.prototype.join`.
 */
module Text {

  predicate IsAsciiUpper(c: char) { 'A' <= c <= 'Z' }

  predicate IsAsciiLower(c: char) { 'a' <= c <= 'z' }

  predicate IsDigit(c: char) { '0' <= c <= '9' }

  /** The regular-expression class `\w`: `[A-Za-z0-9_]`. */
  predicate IsWordChar(c: char) {
    IsAsciiUpper(c) || IsAsciiLower(c) || IsDigit(c) || c == '_'
  }

  /** The characters a regular-expression `.` does not match. */
  predicate IsLineTerminator(c: char) {
    c == '\n' || c == '\r' || c == '\U{2028}' || c == '\U{2029}'
  }

  predicate AllWordChars(s: string) {
    forall i :: 0 <= i < |s| ==> IsWordChar(s[i])
  }

  predicate NoLineTerminator(s: string) {
    forall i :: 0 <= i < |s| ==> !IsLineTerminator(s[i])
  }

  predicate NoUpper(s: string) {
    forall i :: 0 <= i < |s| ==> !IsAsciiUpper(s[i])
  }

  function ToLower(c: char): (r: char)
    ensures !IsAsciiUpper(r)
    ensures IsWordChar(r) <==> IsWordChar(c)
    ensures !IsAsciiUpper(c) ==> r == c
  {
    if IsAsciiUpper(c) then (c as int + 32) as char else c
  }

  function ToUpper(c: char): (r: char)
    ensures !IsAsciiLower(r)
    ensures IsAsciiLower(c) ==> IsAsciiUpper(r) && ToLower(r) == c
    ensures !IsAsciiLower(c) ==> r == c
  {
    if IsAsciiLower(c) then (c as int - 32) as char else c
  }

  /** `String.prototype.toLowerCase`, restricted to ASCII letters. */
  function LowerCase(s: string): (r: string)
    ensures |r| == |s|
    ensures forall i :: 0 <= i < |s| ==> r[i] == ToLower(s[i])
    ensures NoUpper(r)
  {
    seq(|s|, i requires 0 <= i < |s| => ToLower(s[i]))
  }

  lemma LowerCaseOfLower(s: string)
    requires NoUpper(s)
    ensures LowerCase(s) == s
  {
  }

  /** `Array.prototype.join(sep)` over strings. */
  function Join(parts: seq<string>, sep: string): string
    decreases |parts|
  {
    if |parts| == 0 then ""
    else if |parts| == 1 then parts[0]
    else parts[0] + sep + Join(parts[1..], sep)
  }

  /** Every character of a joined string comes from a part or from the separator. */
  lemma {:induction false} JoinChars(parts: seq<string>, sep: string, P: char -> bool)
    requires forall k, i :: 0 <= k < |parts| && 0 <= i < |parts[k]| ==> P(parts[k][i])
    requires forall i :: 0 <= i < |sep| ==> P(sep[i])
    ensures forall i :: 0 <= i < |Join(parts, sep)| ==> P(Join(parts, sep)[i])
    decreases |parts|
  {
    if |parts| > 1 {
      var rest := parts[1..];
      forall k, i | 0 <= k < |rest| && 0 <= i < |rest[k]|
        ensures P(rest[k][i])
      {
        assert rest[k] == parts[k + 1];
      }
      JoinChars(rest, sep, P);
      var j := Join(rest, sep);
      var whole := parts[0] + sep + j;
      forall i | 0 <= i < |whole|
        ensures P(whole[i])
      {
        if i < |parts[0]| {
          assert whole[i] == parts[0][i];
        } else if i < |parts[0]| + |sep| {
          assert whole[i] == sep[i - |parts[0]|];
        } else {
          assert whole[i] == j[i - |parts[0]| - |sep|];
        }
      }
    } else if |parts| == 1 {
      assert Join(parts, sep) == parts[0];
    }
  }
}
